=== FILE: README.md ===
# anyqa, modelled in Dafny

anyqa is a command-line question-answering tool. `load` reads documents from a
local directory tree or a web sitemap. It splits them into chunks by file
type and stores them in a Chroma collection under content-derived ids.
`query` retrieves the chunks closest to a question, formats them as the context
of a persona's prompt template and asks an Ollama model. `setup` and `config`
write and update a YAML configuration file (chunk size and overlap, personas,
default LLM and embedding model). `remove` deletes records or whole collections.

This project models that core and proves properties of the model:

- `VectorDb` (vector_db.dfy) covers the Chroma store and its `ChromaDB` class.
  - The store is a `Client` object whose collections map the class's methods update in place.
  - Binding to a collection, creating it, or refusing to.
  - The `where` filter, deleting by filter or by id, and dropping a collection.
  - Ids from SHA-256 of content + source, with first-occurrence deduplication and upsert.
- `DocumentLoaders` (document_loaders.dfy) covers file-type dispatch, the
  depth/pattern/extension selection over a directory walk, loading each path
  with the first failure aborting, and the sitemap loader's tagging. `PosixPath`
  (posix_path.dfy) models the parts of `os.path.splitext`, `os.path.join`,
  `str.rfind` and `str.count` the selection relies on.
- `Chunkers` (chunkers.dfy) covers the choice of splitter by extension and the chunking loop.
- `Query` covers `format_docs` (Python's `str.join`), personas and their
  keyword round trip, and the composition of a RAG answer.
- `Configuration` covers the `Config` object, its partial-on-error `load`, and the
  `to_dict`/`load` round trip.
- `Cli` covers the commands `setup`, `config`, `load`, `remove` and `query` as
  methods over the `Client` and a parsed configuration document.

Python's dynamic values (YAML documents, option values, collection metadata)
are the datatype `Python.Value`; raised exceptions are `Python.Error` carried
in a `Result`. Every library the code calls is a function parameter:
- SHA-256;
- the directory walk (its output);
- the file parsers and the sitemap crawl;
- the regular-expression match;
- the text splitter and the retriever;
- prompt rendering and the LLM.

Behaviours of the source that the model keeps and the contracts make visible:

- `config --chunk-size 500` stores the text "500", not the number 500. The
  click options carry no `type=`, and `Cli.UpdateConfig` writes `Str` values accordingly.
- The options are treated differently:
  - `config` ignores an empty option (it checks truthiness);
  - `load` uses an empty `--embedding-model` as given (it only checks for None).
- `WebDocumentLoader` stores its depth (-1 becomes 1000), but nothing in `load` uses it.
- In `remove`, binding with no embedding model refuses a missing collection
  first. The branch that logs "does not exist" is therefore unreachable:
  `Cli.Remove` proves that a dropped collection always existed.
- The record id hashes content and source concatenated. Two documents whose
  concatenations coincide share an id (`VectorDb.BoundaryCollision`). Within one
  batch only the first of them is stored. A later load of the other one
  replaces the stored content and overwrites the metadata keys it carries
  (`VectorDb.LaterCollisionOverwrites`).
- A `load` whose source selects nothing (`--depth 0`, a pattern that matches
  no file, an empty directory) hands Chroma an empty upsert, which Chroma
  refuses with a ValueError. The collection may already have been created by
  then, and the configuration is not saved (`Cli.StoreChunks`, `Cli.LoadCommand`).
- `delete_all_records` on a collection without records hands Chroma a delete
  with an empty id list and no filter, which Chroma refuses with a ValueError.
  So `remove` of an empty collection that is kept (`--keep`, or "default")
  fails (`VectorDb.ChromaDB.DeleteAllRecords`, `Cli.Remove`).
- A fresh `Config` has no `default_embedding_model` attribute, so saving it
  raises. A `load` that fails partway leaves the fields read before the error assigned.

## Model

| member | source | states |
|---|---|---|
| Python.Subscript | anyqa/models/config.py:24 | `v[key]` succeeds exactly on a dict holding the key and yields its entry; KeyError for a dict without it, TypeError for any other value |
| Documents.WithMetadata | anyqa/models/document_loaders.py:54 | setting one metadata entry keeps the content, adds the key with its value and leaves every other entry unchanged |
| PosixPath.RFind | anyqa/models/document_loaders.py:47 | the result is the index of the last occurrence of the character, or -1 when there is none |
| PosixPath.RFindAppend | anyqa/models/document_loaders.py:47 | the last occurrence in a concatenation lies in the second part when it has one, otherwise in the first |
| PosixPath.Count | anyqa/models/document_loaders.py:62 | `str.count` of one character is its number of occurrences: at most the length, and zero exactly when it does not occur |
| PosixPath.Drop | anyqa/models/document_loaders.py:62 | the slice `s[n:]` is the rest after the first n characters, and empty past the end |
| PosixPath.Splitext | anyqa/models/document_loaders.py:47 | root and extension concatenate back to the path; a non-empty extension starts with its only dot and holds no separator |
| PosixPath.ExtensionPresent | anyqa/models/document_loaders.py:47 | the extension is non-empty exactly when the final component holds a '.' after some other character, and it then runs from the last '.' to the end |
| PosixPath.PlainExtension | anyqa/models/document_loaders.py:47 | "a.txt" splits into "a" and ".txt" |
| PosixPath.LastDotExtension | anyqa/models/document_loaders.py:47 | "archive.tar.gz" splits at its last dot, into "archive.tar" and ".gz" |
| PosixPath.NoExtension | anyqa/models/document_loaders.py:47 | ".bashrc" and "dir.d/file" have no extension |
| PosixPath.Join | anyqa/models/document_loaders.py:67 | `os.path.join`: an absolute second part replaces the first; otherwise the two are joined by exactly one separator |
| PosixPath.ExtAfterSeparator | anyqa/models/document_loaders.py:66-67 | the extension of a path ending in a plain file name is that file name's extension |
| PosixPath.ExtOfJoin | anyqa/models/document_loaders.py:66-67 | joining any directory with a plain file name keeps the file's extension, so testing the name's extension equals testing the path's |
| VectorDb.MatchingIds | anyqa/models/vector_db.py:54-57 | the listed ids are exactly the collection's records that match the filter, and all of them without a filter |
| VectorDb.DeleteIds | anyqa/models/vector_db.py:76 | deleting by ids removes exactly those ids and keeps metadata and all other records |
| VectorDb.DeleteMatching | anyqa/models/vector_db.py:62 | after deleting by filter no record matches, exactly the matching ids are gone, and the survivors are unchanged |
| VectorDb.OpenCollection | anyqa/models/vector_db.py:29-40 | an existing collection is bound with the model in its metadata and nothing changes (KeyError without one); a missing one is refused with ValueError when no model is given, otherwise created with that model and no records, other collections untouched |
| VectorDb.BindIgnoresArgument | anyqa/models/vector_db.py:31-32 | binding an existing collection does not depend on the embedding model passed |
| VectorDb.CreatedModelIsPermanent | anyqa/models/vector_db.py:37-39 | a collection created with a model reports that model on every later binding, whatever model the later caller passes |
| VectorDb.SameConcatenationSameId | anyqa/models/vector_db.py:85-90 | documents whose content + source strings are equal get equal ids |
| VectorDb.BoundaryCollision | anyqa/models/vector_db.py:85-90 | the id does not separate content from source: ("ab", "c") and ("a", "bc") get the same id |
| VectorDb.RecordId | anyqa/models/vector_db.py:85-90 | the id is the hash of the content followed by the source; SameConcatenationSameId and BoundaryCollision state what that implies |
| VectorDb.Dedup | anyqa/models/vector_db.py:82-93 | the batch has aligned ids and documents, every kept document comes from the input under its own id, no id repeats, and every input document's id is in the batch; the batch is empty exactly when the input is |
| VectorDb.DedupKeepsFirstOccurrences | anyqa/models/vector_db.py:91-93 | the kept documents are exactly the first occurrence of each id, in input order |
| VectorDb.DedupBatch | anyqa/models/vector_db.py:82-93 | the hashing loop raises KeyError("source") exactly when some document has no source, and otherwise yields the deduplicated batch |
| VectorDb.Merged | anyqa/models/vector_db.py:95 | Chroma's upsert of one record: a new id stores the document; an existing id takes the new content, the new metadata values, and keeps the stored keys the document does not carry |
| VectorDb.Upsert | anyqa/models/vector_db.py:95 | after the upsert the ids are the old ids plus the batch's ids |
| VectorDb.UpsertValues | anyqa/models/vector_db.py:95 | with distinct ids every batch id holds its document merged into what it held, and every other record is unchanged |
| VectorDb.UpsertIdempotent | anyqa/models/vector_db.py:95 | upserting the same distinct-id batch twice equals upserting it once |
| VectorDb.AddDocuments | anyqa/models/vector_db.py:95 | adding a batch keeps the collection's metadata and upserts the batch into its records |
| VectorDb.ReloadChangesNothing | anyqa/models/vector_db.py:79-96 | loading documents stores every document's id, and loading the same documents again changes nothing |
| VectorDb.LaterCollisionOverwrites | anyqa/models/vector_db.py:79-96 | deduplication is per batch: a later load of a document whose id collides with a stored one replaces its content and overwrites the metadata keys it carries |
| VectorDb.Client.constructor | anyqa/models/vector_db.py:21 | the client opens on the persisted collections |
| VectorDb.ChromaDB.Bind | anyqa/models/vector_db.py:20-48 | the object's collection, embedding model, embedding function and LangChain handle are consistent with the name and model bound |
| VectorDb.ChromaDB.Open | anyqa/models/vector_db.py:18-48 | without a name nothing is bound and the store is untouched; with a name the store and the result follow OpenCollection, and a refusal changes nothing |
| VectorDb.ChromaDB.GetIds | anyqa/models/vector_db.py:54-57 | returns the ids of the bound collection that match the filter |
| VectorDb.ChromaDB.DeleteWhere | anyqa/models/vector_db.py:59-63 | returns the ids that matched before and removes exactly those records from the bound collection only |
| VectorDb.ChromaDB.DeleteAllRecords | anyqa/models/vector_db.py:73-77 | on a collection with records, returns every id and leaves the collection present, with its metadata and no records; on an empty one Chroma refuses the delete with a ValueError and nothing changes |
| VectorDb.ChromaDB.DeleteCollection | anyqa/models/vector_db.py:65-71 | returns True exactly when the collection existed, and afterwards it is gone |
| VectorDb.ChromaDB.LoadDocuments | anyqa/models/vector_db.py:79-96 | fails with KeyError when a document has no source, and with Chroma's ValueError when there are no documents, changing nothing either way; otherwise returns the deduplicated ids and upserts their documents into the bound collection |
| DocumentLoaders.LoadSingleDocument | anyqa/models/document_loaders.py:45-55 | a loaded document always carries an "extension" entry |
| DocumentLoaders.LoadSingleDocumentSpec | anyqa/models/document_loaders.py:45-55 | "Document type is undefined" exactly for an extension without a loader; an empty load raises IndexError; otherwise the first loaded document keeps its content and metadata and is tagged with the extension, dot included |
| DocumentLoaders.DepthAllows | anyqa/models/document_loaders.py:62 | a negative depth allows every directory, depth 0 none, and a positive depth those fewer separators below the root |
| DocumentLoaders.FilePaths | anyqa/models/document_loaders.py:63-69 | one directory yields at most one path per file; which paths it yields is stated by FilePathsSelect |
| DocumentLoaders.FilePathsSelect | anyqa/models/document_loaders.py:63-69 | a path is selected from a directory exactly when it joins the directory with one of its wanted files |
| DocumentLoaders.CollectSelect | anyqa/models/document_loaders.py:61-69 | a path is selected from the walk exactly when it joins an allowed directory with one of its wanted files |
| DocumentLoaders.SelectedFromPrefix | anyqa/models/document_loaders.py:61-69 | a path selected from an earlier part of the walk stays selected from the whole walk |
| DocumentLoaders.WalkPaths | anyqa/models/document_loaders.py:59-69 | an empty walk selects nothing; WalkPathsSelect and NothingSelected state which paths a walk selects |
| DocumentLoaders.WalkPathsSelect | anyqa/models/document_loaders.py:59-69 | a path is selected exactly when it joins a directory passing the depth test with a file some pattern matches and whose extension has a loader |
| DocumentLoaders.NothingSelected | anyqa/models/document_loaders.py:62-64 | depth 0 or an empty pattern list selects no path |
| DocumentLoaders.SelectedPathsAreSupported | anyqa/models/document_loaders.py:66-69 | every selected path's own extension has a loader, so loading a selected path never raises "Document type is undefined" |
| DocumentLoaders.LoadEach | anyqa/models/document_loaders.py:71-73 | loading succeeds exactly when every path loads, with one document per path in order; a failure is the first failing path's error |
| DocumentLoaders.LoadEachStep | anyqa/models/document_loaders.py:71-73 | one more successful load appends its document |
| DocumentLoaders.LoadEachStops | anyqa/models/document_loaders.py:71-73 | the first failing load decides the result for the whole list |
| DocumentLoaders.DirectoryDocumentLoader.SelectFiles | anyqa/models/document_loaders.py:63-69 | the inner loop selects exactly FilePaths of the directory's wanted files |
| DocumentLoaders.DirectoryDocumentLoader.SelectPaths | anyqa/models/document_loaders.py:59-69 | the selection loop yields exactly the selected paths of the walk, in walk order |
| DocumentLoaders.DirectoryDocumentLoader.GetPathDocuments | anyqa/models/document_loaders.py:57-75 | the result is loading each selected path in order, with the first failure as the result |
| DocumentLoaders.WebDocumentLoader.Crawled | anyqa/models/document_loaders.py:89-94 | one document per crawled page, in crawl order, each the page with "extension" set to ".html" and nothing else changed |
| DocumentLoaders.WebDocumentLoader.Load | anyqa/models/document_loaders.py:87-94 | the tagging loop returns exactly the crawled pages, tagged |
| DocumentLoaders.NewWebDocumentLoader | anyqa/models/document_loaders.py:81-85 | depth -1 becomes 1000, any other depth and the url and patterns are kept |
| Chunkers.SplitterChoice | anyqa/models/chunkers.py:4-12 | .html, .md and .py get language-aware splitters, and .txt, .pdf, .docx and .doc the generic one; no other extension has a splitter |
| Chunkers.UnsplitLoadableTypes | anyqa/models/chunkers.py:4-12 | of the loadable types exactly .csv, .xls and .xlsx have no splitter, and every splittable type is loadable |
| Chunkers.Chunker.Contribution | anyqa/models/chunkers.py:24-34 | a document without "extension" raises KeyError; one with a splitter yields the splitter's output on it alone; any other is kept whole |
| Chunkers.Chunker.ChunkAll | anyqa/models/chunkers.py:23-36 | no documents give no chunks, and any failure is KeyError("extension") |
| Chunkers.Chunker.ChunkAllAppend | anyqa/models/chunkers.py:23-34 | chunking a concatenation concatenates the chunks of the parts, failing with the first part's failure |
| Chunkers.Chunker.ChunkAllSingle | anyqa/models/chunkers.py:23-34 | chunking one document yields exactly its contribution |
| Chunkers.Chunker.ChunkAllFails | anyqa/models/chunkers.py:26 | chunking succeeds exactly when every document has an extension entry, and otherwise raises KeyError("extension") |
| Chunkers.Chunker.ChunkDocuments | anyqa/models/chunkers.py:21-36 | the loop returns the chunks of every document in order, or the first KeyError |
| Query.JoinLength | anyqa/models/query.py:12 | a join is as long as its parts plus one separator per gap |
| Query.JoinConcat | anyqa/models/query.py:12 | joining a concatenation puts one separator between the joins of the two halves |
| Query.Join | anyqa/models/query.py:12 | `sep.join`: no parts give "", one part gives itself; JoinLength and JoinConcat state the rest |
| Query.Contents | anyqa/models/query.py:12 | one page content per document, in order |
| Query.FormatDocs | anyqa/models/query.py:11-12 | no documents give "", one document gives its content |
| Query.FormatDocsShape | anyqa/models/query.py:11-12 | no documents give "", one document gives its content, and n documents give their contents plus 2(n-1) characters |
| Query.FormatDocsAppend | anyqa/models/query.py:11-12 | the context of two batches is their contexts separated by one blank line |
| Query.Persona.ToDict | anyqa/models/query.py:20-21 | the dict has exactly the keys name and template, holding the persona's fields |
| Query.FromKeywords | anyqa/models/query.py:15-18 | `Persona(**kwargs)` succeeds exactly on a mapping with the keys name and template, otherwise TypeError |
| Query.PersonaRoundTrip | anyqa/models/query.py:15-21 | `Persona(**p.to_dict())` equals p field by field |
| Query.KeywordsRoundTrip | anyqa/models/query.py:15-21 | a persona built from keywords gives exactly those keywords back |
| Query.Rag.PromptVariables | anyqa/models/query.py:35-37 | the prompt's context is format_docs of the sources and its question is the question unchanged |
| Query.Rag.Ask | anyqa/models/query.py:37-42 | the sources are exactly what the retriever returned for the question, in its order, and the response is the model's output on the template rendered with them |
| Query.NewRag | anyqa/models/query.py:25-33 | the RAG uses the given retriever, the persona's template and the given model |
| Configuration.EncodePersonas | anyqa/models/config.py:40 | one dict per persona, in order |
| Configuration.SettingsToDict | anyqa/models/config.py:34-42 | to_dict raises AttributeError exactly when the embedding model was never assigned |
| Configuration.DecodeItems | anyqa/models/config.py:26 | decoding a list of persona keywords yields one persona per item, or TypeError |
| Configuration.DecodePersonas | anyqa/models/config.py:26 | any failure decoding the personas is a TypeError |
| Configuration.DecodeConfig | anyqa/models/config.py:20-28 | a successful load always sets the embedding model |
| Configuration.AfterLoad | anyqa/models/config.py:24-28 | a load whose first read fails changes nothing; otherwise the chunk size is the document's |
| Configuration.LoadOverwrites | anyqa/models/config.py:24-28 | a successful load sets every field to the document's value, whatever the previous values |
| Configuration.FailedLoadKeepsEmbeddingModel | anyqa/models/config.py:24-28 | a failed load never assigns the embedding model, so a fresh Config whose load fails still cannot be saved |
| Configuration.DecodeEncodedItems | anyqa/models/config.py:26 | decoding the encoded persona list restores the personas, with their number and order |
| Configuration.RoundTrip | anyqa/models/config.py:20-42 | loading the document to_dict produced restores all five settings, personas in order with their names and templates |
| Configuration.Config.constructor | anyqa/models/config.py:13-18 | a fresh Config has no sizes, no personas and no LLM, and cannot be saved |
| Configuration.Config.Load | anyqa/models/config.py:20-32 | returns the document exactly when every field was read, with the fields as read; on an error it returns that error and leaves the fields assigned before it |
| Configuration.Config.ToDict | anyqa/models/config.py:34-42 | the document produced loads back as the object's current settings |
| Configuration.Config.Save | anyqa/models/config.py:44-49 | writes to_dict's document, and fails exactly when the embedding model was never assigned |
| Cli.Setup | anyqa/cli.py:23-36 | the written configuration loads back with chunk size 1000, overlap 200, the default LLM and embedding model, and exactly one persona, "default" |
| Cli.Overwrite | anyqa/cli.py:50-57 | a setting is replaced by an option's text only when the option is given and non-empty |
| Cli.Updated | anyqa/cli.py:49-57 | each setting is overwritten by its own option only, and the personas are kept |
| Cli.NoOptionsNoChange | anyqa/cli.py:49-57 | absent or empty options leave every setting as loaded |
| Cli.UpdateIdempotent | anyqa/cli.py:49-57 | running `config` twice with the same options equals running it once |
| Cli.UpdateConfig | anyqa/cli.py:39-60 | a load error is raised without writing; otherwise the written document loads back as the loaded settings with the options applied |
| Cli.SourceChoice | anyqa/cli.py:75-81 | --web wins over --dir; with neither, ValueError before anything is loaded |
| Cli.EmbeddingModelChoice | anyqa/cli.py:90-91 | a given option is used even when empty; the configured model is used only when the option is absent |
| Cli.LoadSource | anyqa/cli.py:82 | a directory source loads its selected paths in order, or fails at the first failing one; a web source yields exactly the crawled pages tagged ".html" |
| Cli.Ingest | anyqa/cli.py:82-86 | the chunks of the loaded documents, or the loading error; the crawled pages of a web source all carry an extension, so chunking them raises no KeyError |
| Cli.StoreChunks | anyqa/cli.py:90-93 | a refused binding changes nothing; a chunk without a source (KeyError) or no chunks at all (ValueError) fails after binding, so a collection just created stays, empty; otherwise the deduplicated ids are returned and upserted into the bound collection, no record is lost and other collections are unchanged |
| Cli.LoadCommand | anyqa/cli.py:63-96 | a configuration error or a missing source changes nothing; any other failure changes nothing or leaves only the newly created collection, empty; on success the stored ids are in the collection, no existing record is lost, other collections are unchanged, and the configuration written back loads as the one read |
| Cli.RemoveAction | anyqa/cli.py:113-127 | a filter deletes only matching records; otherwise a collection other than "default" is dropped unless --keep is given; the "default" collection is never dropped |
| Cli.Remove | anyqa/cli.py:99-127 | succeeds exactly when the configuration loads, the collection can be bound, and it is not an empty collection being emptied (Chroma refuses that delete with a ValueError); a missing collection raises ValueError; a failure changes nothing; each action has its exact effect, and a dropped collection always existed |
| Cli.Named | anyqa/cli.py:165 | the filtered personas all come from the list and carry the requested name; FindPersonaFirst states which comes first |
| Cli.FindPersona | anyqa/cli.py:165 | a failed lookup is an IndexError; a found persona is from the list and has the name |
| Cli.FindPersonaFirst | anyqa/cli.py:165 | the lookup succeeds exactly when some persona has the name and then yields the first such persona; otherwise IndexError |
| Cli.SourceName | anyqa/cli.py:171 | a source is named by its "loc" when that is non-empty, else by its "source" |
| Cli.SourceNames | anyqa/cli.py:171 | one name per retrieved document, in retrieval order |
| Cli.LlmChoice | anyqa/cli.py:166-167 | the --llm option when given, else the configured default LLM |
| Cli.QueryCommand | anyqa/cli.py:149-174 | never changes the store; with libraries that do not raise, succeeds exactly when the configuration loads, the collection exists with a model and the persona is found; the reply is the RAG answer with one source name per retrieved document |

## Left out

- YAML parsing and writing, and the configuration file's location: each command takes the parsed document and returns the document it writes. YAML is taken to round-trip the values written.
- Reading files and the directory walk: `os.walk` output is a parameter. The walk's root is taken to be absolute and normalised (`os.path.abspath(path) == path`).
- The document parsers (`UnstructuredHTMLLoader`, `TextLoader`, `CSVLoader`, ...) are the `Parser` parameter, indexed by loader kind.
- The sitemap crawl (`SitemapLoader`, same-domain restriction, two requests per second) is the `Sitemap` parameter, because it is network I/O.
- Regular-expression matching (`re.match`) is the `Matcher` parameter.
- SHA-256 and UTF-8 encoding: the id is an uninterpreted function of the content + source string.
- Embeddings, vector similarity search, `as_retriever` and the `k` search argument belong to Chroma and LangChain; the retriever is a parameter.
- The text splitting algorithm (`RecursiveCharacterTextSplitter`) is the `SplitDocuments` parameter.
- `PromptTemplate` rendering and the Ollama LLM are the `Render` and `Generate` parameters.
- `VectorDb.ChromaDB.GetIds`: returns the ids as a set, so the listing order Chroma gives them in is not modelled.
- `add_documents` is modelled as an upsert by id: LangChain's Chroma wrapper calls the collection's `upsert`. An existing id merges metadata keys, as Chroma updates record metadata. An empty id list is refused with a ValueError, as Chroma's id validation does in the versions that check it; the same versions refuse a delete with no ids and no filter, which is what `delete_all_records` sends for an empty collection. Embedding vectors are not part of a record.
- `DirectoryDocumentLoader.load` only delegates to `get_path_documents`. `Cli.LoadSource` is that call.
- The `list` command is not modelled: it only logs collection statistics.
- anyqa/models/embeddings.py is not part of this model. The embedding function is identified by its model name.
- Logging, click's option parsing and `json.loads` are not modelled: `remove` receives the `--where` filter already parsed.
- Chroma `where` filters are modelled as field equality only, read as a conjunction of all the listed fields, with the empty filter matching every record. Chroma's operators (`$and`, `$in`, ...) are not modelled. Neither is its rejection (depending on the version) of a filter with zero or several top-level keys.
- Document metadata is modelled as strings only (`map<string, string>`). Loaders that set non-string values, such as `CSVLoader`'s integer "row", are modelled with that value as a string.
- Library calls are taken not to raise: the parameters are total functions. In the program each of these can raise:
  - the sitemap crawl (network I/O);
  - the file parsers;
  - LangChain's text splitter constructor, with a ValueError when the overlap exceeds the size;
  - the same constructor with a TypeError comparing sizes stored as text, which is what `config --chunk-size 500` leaves, so every later `load` of a splittable file fails;
  - the retriever and the Ollama call, when unreachable;
  - Chroma, which rejects invalid collection names.

  `Cli.LoadSource`, `Cli.Ingest`, `Cli.LoadCommand` and `Cli.QueryCommand` succeed in more cases than the program does for that reason.
- `Cli.LoadCommand`: states where the ids are stored and what is kept, not the exact records written. The per-record values are proved one level down, in `VectorDb.ChromaDB.LoadDocuments` and `VectorDb.UpsertValues`.

=== FILE: chunkers.dfy ===
/**
 * Extension-based chunking (anyqa/models/chunkers.py). The splitting
 * algorithm of LangChain's RecursiveCharacterTextSplitter is a parameter.
 */
module Chunkers {
  import opened Wrappers
  import opened Python
  import opened Documents
  import DocumentLoaders

  datatype Language = Html | Markdown | PythonCode

  /** A language-aware recursive splitter, or the generic recursive character splitter. */
  datatype SplitterKind = LanguageAware(language: Language) | Generic

  const SplitterMap: map<string, SplitterKind> := map[
    ".html" := LanguageAware(Html),
    ".md" := LanguageAware(Markdown),
    ".py" := LanguageAware(PythonCode),
    ".txt" := Generic,
    ".pdf" := Generic,
    ".docx" := Generic,
    ".doc" := Generic
  ]

  /** A splitter as built from SPLITTER_MAP with the chunker's size and overlap. */
  datatype Splitter = Splitter(kind: SplitterKind, chunkSize: Value, chunkOverlap: Value)

  /** `splitter.split_documents(documents=...)`. */
  type SplitDocuments = (Splitter, seq<Document>) -> seq<Document>

  /** Splitter choice: markup and code are split along their syntax, plain and office text generically. */
  lemma SplitterChoice()
    ensures forall ext :: ext in {".html", ".md", ".py"} ==> ext in SplitterMap && SplitterMap[ext].LanguageAware?
    ensures forall ext :: ext in {".txt", ".pdf", ".docx", ".doc"} ==> ext in SplitterMap && SplitterMap[ext] == Generic
    ensures SplitterMap.Keys == {".html", ".md", ".py", ".txt", ".pdf", ".docx", ".doc"}
  {
  }

  /**
   * Of the loadable file types, only spreadsheets (.csv, .xls, .xlsx) have
   * no splitter and reach the vector store as whole documents; every
   * splittable type is loadable.
   */
  lemma UnsplitLoadableTypes()
    ensures DocumentLoaders.DocumentMap.Keys - SplitterMap.Keys == {".csv", ".xls", ".xlsx"}
    ensures SplitterMap.Keys <= DocumentLoaders.DocumentMap.Keys
  {
    var loadable := DocumentLoaders.DocumentMap.Keys;
    assert loadable == {".html", ".txt", ".md", ".py", ".pdf", ".csv", ".xls", ".xlsx", ".docx", ".doc"};
    assert SplitterMap.Keys == {".html", ".md", ".py", ".txt", ".pdf", ".docx", ".doc"};
    assert ".csv" != ".xls" && ".xlsx"[..4] == ".xls";
  }

  datatype Chunker = Chunker(chunkSize: Value, chunkOverlap: Value) {

    /**
     * The chunks one document contributes: KeyError without an "extension"
     * entry; the splitter's output on `[doc]` for a SPLITTER_MAP extension;
     * the document itself otherwise.
     */
    function Contribution(doc: Document, split: SplitDocuments): (r: Result<seq<Document>, Error>)
      ensures r.Failure? <==> ExtensionKey !in doc.metadata
      ensures r.Failure? ==> r.error == KeyError(ExtensionKey)
      ensures r.Success? && doc.metadata[ExtensionKey] !in SplitterMap ==> r.value == [doc]
      ensures r.Success? && doc.metadata[ExtensionKey] in SplitterMap ==>
                r.value == split(Splitter(SplitterMap[doc.metadata[ExtensionKey]], chunkSize, chunkOverlap), [doc])
    {
      if ExtensionKey !in doc.metadata then Failure(KeyError(ExtensionKey))
      else
        var extension := doc.metadata[ExtensionKey];
        if extension in SplitterMap then
          Success(split(Splitter(SplitterMap[extension], chunkSize, chunkOverlap), [doc]))
        else
          Success([doc])
    }

    /** The chunks of all documents, in order; the first document without an extension stops it. */
    function ChunkAll(docs: seq<Document>, split: SplitDocuments): (r: Result<seq<Document>, Error>)
      ensures docs == [] ==> r == Success([])
      ensures r.Failure? ==> r.error == KeyError(ExtensionKey)
    {
      if docs == [] then Success([])
      else
        var done := ChunkAll(docs[..|docs| - 1], split);
        if done.Failure? then done
        else
          var chunks := Contribution(docs[|docs| - 1], split);
          if chunks.Failure? then chunks
          else Success(done.value + chunks.value)
    }

    /** Chunking a concatenation chunks each part and concatenates, failing with the first part's failure. */
    lemma {:induction false} ChunkAllAppend(a: seq<Document>, b: seq<Document>, split: SplitDocuments)
      ensures ChunkAll(a + b, split) ==
                if ChunkAll(a, split).Failure? then ChunkAll(a, split)
                else if ChunkAll(b, split).Failure? then ChunkAll(b, split)
                else Success(ChunkAll(a, split).value + ChunkAll(b, split).value)
      decreases |b|
    {
      if b == [] {
        assert a + b == a;
        if ChunkAll(a, split).Success? {
          assert ChunkAll(a, split).value + [] == ChunkAll(a, split).value;
        }
      } else {
        var n := |b| - 1;
        assert (a + b)[..|a + b| - 1] == a + b[..n];
        assert (a + b)[|a + b| - 1] == b[n];
        ChunkAllAppend(a, b[..n], split);
        assert b[..n][..|b[..n]|] == b[..n];
        var A, B, C := ChunkAll(a, split), ChunkAll(b[..n], split), Contribution(b[n], split);
        if A.Success? && B.Success? && C.Success? {
          assert (A.value + B.value) + C.value == A.value + (B.value + C.value);
        }
      }
    }

    /** Chunking one document yields exactly its contribution. */
    lemma ChunkAllSingle(doc: Document, split: SplitDocuments)
      ensures ChunkAll([doc], split) == Contribution(doc, split)
    {
      assert [doc][..0] == [];
      var c := Contribution(doc, split);
      if c.Success? {
        assert [] + c.value == c.value;
      }
    }

    /** Every document has an extension entry exactly when chunking succeeds. */
    lemma {:induction false} ChunkAllFails(docs: seq<Document>, split: SplitDocuments)
      ensures ChunkAll(docs, split).Success? <==> forall d :: d in docs ==> ExtensionKey in d.metadata
      ensures ChunkAll(docs, split).Failure? ==> ChunkAll(docs, split).error == KeyError(ExtensionKey)
    {
      if docs != [] {
        var prefix := docs[..|docs| - 1];
        ChunkAllFails(prefix, split);
        assert forall d :: d in docs ==> d in prefix || d == docs[|docs| - 1];
        assert forall d :: d in prefix ==> d in docs;
      }
    }

    /**
     * `chunk_documents(docs)`: extend the chunk list with each document's
     * contribution, in order.
     */
    method ChunkDocuments(docs: seq<Document>, split: SplitDocuments) returns (r: Result<seq<Document>, Error>)
      ensures r == ChunkAll(docs, split)
    {
      var chunks: seq<Document> := [];
      for i := 0 to |docs|
        invariant ChunkAll(docs[..i], split) == Success(chunks)
      {
        var doc := docs[i];
        assert docs[..i + 1][..i] == docs[..i];
        if ExtensionKey !in doc.metadata {
          ChunkAllAppend(docs[..i + 1], docs[i + 1..], split);
          assert docs[..i + 1] + docs[i + 1..] == docs;
          return Failure(KeyError(ExtensionKey));
        }
        var extension := doc.metadata[ExtensionKey];
        var docChunks := [doc];
        if extension in SplitterMap {
          docChunks := split(Splitter(SplitterMap[extension], chunkSize, chunkOverlap), docChunks);
        }
        chunks := chunks + docChunks;
      }
      assert docs[..|docs|] == docs;
      return Success(chunks);
    }
  }
}

=== FILE: cli.dfy ===
/**
 * The command-line commands (anyqa/cli.py): `setup`, `config`, `load`,
 * `remove` and `query`. Each command's YAML configuration document is a
 * parameter (already parsed), and so is every library the commands call:
 * the directory walk, the file parsers, the sitemap crawl, the text
 * splitter, SHA-256, the retriever, the prompt template and the LLM.
 */
module Cli {
  import opened Wrappers
  import opened Python
  import opened Documents
  import opened VectorDb
  import opened DocumentLoaders
  import opened Chunkers
  import opened Query
  import opened Configuration

  const DefaultChunkSize := 1000
  const DefaultChunkOverlap := 200
  const DefaultLlm := "gemma:2b"
  const DefaultEmbeddingModel := "sentence-transformers/all-miniLM-L6-v2"
  const DefaultPersonaName := "default"
  const DefaultPersonaTemplate :=
    "You are a helpful assistant. Answer the user's question based on the\n"
    + "context below. If you do not know the answer, say \"I don't know\".\n\n"
    + "Context:\n\n{context}\n\nQuestion: {question}\n\nAnswer:\n"

  /** The collection every command uses when none is named. */
  const DefaultCollection := "default"

  /** The settings `setup` writes. */
  const DefaultSettings := Settings(
    Int(DefaultChunkSize),
    Int(DefaultChunkOverlap),
    [Persona(Str(DefaultPersonaName), Str(DefaultPersonaTemplate))],
    Str(DefaultLlm),
    Some(Str(DefaultEmbeddingModel)))

  // ---------------------------------------------------------------------------
  // setup

  /**
   * `setup`: the configuration document written, which loads back as chunk
   * size 1000, overlap 200, the default LLM and embedding model, and exactly
   * one persona, "default", with the default template.
   */
  method Setup() returns (written: Value)
    ensures DecodeConfig(written) == Success(DefaultSettings)
    ensures var s := DecodeConfig(written).value;
            |s.personas| == 1 && s.personas[0].name == Str(DefaultPersonaName)
  {
    var config := new Config();
    config.chunkSize := Int(DefaultChunkSize);
    config.chunkOverlap := Int(DefaultChunkOverlap);
    config.defaultEmbeddingModel := Some(Str(DefaultEmbeddingModel));
    config.defaultLlm := Str(DefaultLlm);
    config.personas := [Persona(Str(DefaultPersonaName), Str(DefaultPersonaTemplate))];
    var saved := config.Save();
    RoundTrip(config.Snapshot());
    written := saved.value;
  }

  // ---------------------------------------------------------------------------
  // config

  /** The `config` command's options, as the text given on the command line. */
  datatype ConfigOptions = ConfigOptions(
    embeddingModel: Option<string>,
    chunkSize: Option<string>,
    chunkOverlap: Option<string>,
    llm: Option<string>)

  /** A setting replaced by an option only when the option is given and non-empty. */
  function Overwrite(current: Value, option: Option<string>): (v: Value)
    ensures Truthy(option) ==> v == Str(option.value)
    ensures !Truthy(option) ==> v == current
  {
    if Truthy(option) then Str(option.value) else current
  }

  /** The settings after the `config` command's changes. */
  function Updated(s: Settings, o: ConfigOptions): (u: Settings)
    ensures u.personas == s.personas
    ensures u.chunkSize == Overwrite(s.chunkSize, o.chunkSize)
    ensures u.chunkOverlap == Overwrite(s.chunkOverlap, o.chunkOverlap)
    ensures u.defaultLlm == Overwrite(s.defaultLlm, o.llm)
    ensures Truthy(o.embeddingModel) ==> u.defaultEmbeddingModel == Some(Str(o.embeddingModel.value))
    ensures !Truthy(o.embeddingModel) ==> u.defaultEmbeddingModel == s.defaultEmbeddingModel
  {
    s.(
      defaultEmbeddingModel := if Truthy(o.embeddingModel) then Some(Str(o.embeddingModel.value)) else s.defaultEmbeddingModel,
      chunkSize := Overwrite(s.chunkSize, o.chunkSize),
      chunkOverlap := Overwrite(s.chunkOverlap, o.chunkOverlap),
      defaultLlm := Overwrite(s.defaultLlm, o.llm))
  }

  /** Options that are absent or empty change nothing. */
  lemma NoOptionsNoChange(s: Settings, o: ConfigOptions)
    requires !Truthy(o.embeddingModel) && !Truthy(o.chunkSize) && !Truthy(o.chunkOverlap) && !Truthy(o.llm)
    ensures Updated(s, o) == s
  {
  }

  /** Running `config` twice with the same options is the same as running it once. */
  lemma UpdateIdempotent(s: Settings, o: ConfigOptions)
    ensures Updated(Updated(s, o), o) == Updated(s, o)
  {
  }

  /**
   * `config`: load the configuration, apply the options, save. A load
   * error is raised and nothing is written; otherwise the written document
   * loads back as the updated settings.
   */
  method UpdateConfig(doc: Value, options: ConfigOptions) returns (r: Result<Value, Error>)
    ensures r.Success? <==> DecodeConfig(doc).Success?
    ensures r.Failure? ==> r == Failure(DecodeConfig(doc).error)
    ensures r.Success? ==> DecodeConfig(r.value) == Success(Updated(DecodeConfig(doc).value, options))
  {
    var config := new Config();
    var loaded := config.Load(doc);
    if loaded.Failure? {
      return Failure(loaded.error);
    }
    if Truthy(options.embeddingModel) {
      config.defaultEmbeddingModel := Some(Str(options.embeddingModel.value));
    }
    if Truthy(options.chunkSize) {
      config.chunkSize := Str(options.chunkSize.value);
    }
    if Truthy(options.chunkOverlap) {
      config.chunkOverlap := Str(options.chunkOverlap.value);
    }
    if Truthy(options.llm) {
      config.defaultLlm := Str(options.llm.value);
    }
    assert config.Snapshot() == Updated(DecodeConfig(doc).value, options);
    r := config.Save();
    RoundTrip(config.Snapshot());
  }

  // ---------------------------------------------------------------------------
  // load

  /** The loader the `load` command builds. */
  datatype Source = Web(web: WebDocumentLoader) | Directory(directory: DirectoryDocumentLoader)

  const NoSource := ValueError("One of --dir or --web must be defined.")

  /** `--web` wins over `--dir`; with neither, a ValueError before anything is loaded. */
  function SourceChoice(dir: Option<string>, web: Option<string>, depth: int, pattern: seq<string>): (r: Result<Source, Error>)
    ensures r.Failure? <==> dir.None? && web.None?
    ensures r.Failure? ==> r.error == NoSource
    ensures r.Success? ==> (r.value.Web? <==> web.Some?)
    ensures r.Success? && r.value.Web? ==> r.value.web == NewWebDocumentLoader(web.value, depth, pattern)
    ensures r.Success? && r.value.Directory? ==> r.value.directory == DirectoryDocumentLoader(dir.value, depth, pattern)
  {
    if web.Some? then Success(Web(NewWebDocumentLoader(web.value, depth, pattern)))
    else if dir.Some? then Success(Directory(DirectoryDocumentLoader(dir.value, depth, pattern)))
    else Failure(NoSource)
  }

  /**
   * The embedding model for `load`: the option whenever it is given, even
   * empty; the configured default only when it is absent.
   */
  function EmbeddingModelChoice(option: Option<string>, configured: Option<Value>): (m: Value)
    ensures option.Some? ==> m == Str(option.value)
    ensures option.None? && configured.Some? ==> m == configured.value
  {
    if option.Some? then Str(option.value)
    else if configured.Some? then configured.value else Null
  }

  /** The libraries `load` calls, each taken as a parameter. */
  datatype LoadLibraries = LoadLibraries(
    walk: seq<WalkEntry>,
    matches: Matcher,
    parse: Parser,
    sitemap: Sitemap,
    split: SplitDocuments,
    sha256: string -> Id)

  /** The documents a source yields; only a directory load can fail. */
  method LoadSource(source: Source, libs: LoadLibraries) returns (r: Result<seq<Document>, Error>)
    ensures source.Directory? ==>
              r == LoadEach(WalkPaths(libs.walk, source.directory.path, source.directory.depth,
                                      source.directory.pattern, libs.matches), FileLoader(libs.parse))
    ensures source.Web? ==> r == Success(source.web.Crawled(libs.sitemap))
  {
    match source
    case Web(loader) =>
      var documents := loader.Load(libs.sitemap);
      r := Success(documents);
    case Directory(loader) =>
      r := loader.GetPathDocuments(libs.walk, libs.matches, libs.parse);
  }

  /** The chunks of a source's documents, split with the configured size and overlap. */
  method Ingest(source: Source, chunkSize: Value, chunkOverlap: Value, libs: LoadLibraries)
    returns (r: Result<seq<Document>, Error>)
    ensures source.Directory? ==>
              var loaded := LoadEach(WalkPaths(libs.walk, source.directory.path, source.directory.depth,
                                               source.directory.pattern, libs.matches), FileLoader(libs.parse));
              r == if loaded.Failure? then Failure(loaded.error)
                   else Chunker(chunkSize, chunkOverlap).ChunkAll(loaded.value, libs.split)
    ensures source.Web? ==> r == Chunker(chunkSize, chunkOverlap).ChunkAll(source.web.Crawled(libs.sitemap), libs.split)
    ensures source.Web? ==> r.Success?
  {
    var documents :- LoadSource(source, libs);
    var chunker := Chunker(chunkSize, chunkOverlap);
    r := chunker.ChunkDocuments(documents, libs.split);
    chunker.ChunkAllFails(documents, libs.split);
  }

  /**
   * Bind (or create) the collection and upsert the chunks: the returned ids
   * are the deduplicated batch's, all stored, no record the collection had
   * is lost and no other collection changes. A chunk without a source, or
   * no chunks at all, fails after binding, so a collection just created
   * stays, empty.
   */
  method StoreChunks(client: Client, collection: string, model: Value, chunks: seq<Document>, sha256: string -> Id)
    returns (r: Result<seq<Id>, Error>)
    modifies client
    ensures var o := OpenCollection(old(client.collections), collection, model);
            && (o.Failure? ==> r == Failure(o.error) && client.collections == old(client.collections))
            && (o.Success? && !AllSourced(chunks) ==>
                  r == Failure(KeyError(SourceKey)) && client.collections == o.value.store)
            && (o.Success? && AllSourced(chunks) && chunks == [] ==>
                  r == Failure(EmptyIds) && client.collections == o.value.store)
            && (o.Success? && AllSourced(chunks) && chunks != [] ==>
                  && collection in o.value.store
                  && r == Success(Dedup(chunks, sha256).ids)
                  && client.collections ==
                       o.value.store[collection := AddDocuments(o.value.store[collection], Dedup(chunks, sha256))])
    ensures r.Success? ==>
              && collection in client.collections
              && (forall id :: id in r.value ==> id in client.collections[collection].records)
              && (collection in old(client.collections) ==>
                    old(client.collections[collection].records.Keys) <= client.collections[collection].records.Keys)
              && (forall other :: other in old(client.collections) && other != collection ==>
                    other in client.collections && client.collections[other] == old(client.collections[other]))
  {
    var db :- ChromaDB.Open(client, Some(collection), model);
    var ids :- db.LoadDocuments(chunks, sha256);
    return Success(ids);
  }

  /**
   * `load`: read the configuration, load the documents from the chosen
   * source, chunk them, bind (or create) the collection and upsert the
   * chunks; returns the ids saved and the configuration document written
   * back. A configuration or source error changes nothing; any later
   * failure either changes nothing or leaves behind only the collection it
   * created, empty. A successful load keeps every record the collection had
   * and leaves the other collections alone.
   */
  method LoadCommand(doc: Value, client: Client, dir: Option<string>, web: Option<string>,
                     embeddingModel: Option<string>, collection: string, depth: int, pattern: seq<string>,
                     libs: LoadLibraries)
    returns (r: Result<(seq<Id>, Value), Error>)
    modifies client
    ensures DecodeConfig(doc).Failure? ==>
              r == Failure(DecodeConfig(doc).error) && client.collections == old(client.collections)
    ensures DecodeConfig(doc).Success? && dir.None? && web.None? ==>
              r == Failure(NoSource) && client.collections == old(client.collections)
    ensures r.Failure? ==>
              || client.collections == old(client.collections)
              || (&& collection !in old(client.collections)
                  && client.collections.Keys == old(client.collections).Keys + {collection}
                  && client.collections[collection].records == map[]
                  && forall other :: other in old(client.collections) ==>
                       client.collections[other] == old(client.collections[other]))
    ensures r.Success? ==> DecodeConfig(r.value.1) == DecodeConfig(doc)
    ensures r.Success? ==>
              && collection in client.collections
              && (forall id :: id in r.value.0 ==> id in client.collections[collection].records)
              && (collection in old(client.collections) ==>
                    old(client.collections[collection].records.Keys) <= client.collections[collection].records.Keys)
              && (forall other :: other in old(client.collections) && other != collection ==>
                    other in client.collections && client.collections[other] == old(client.collections[other]))
  {
    var config := new Config();
    var loaded := config.Load(doc);
    if loaded.Failure? {
      return Failure(loaded.error);
    }
    var source := SourceChoice(dir, web, depth, pattern);
    if source.Failure? {
      return Failure(source.error);
    }
    var chunks :- Ingest(source.value, config.chunkSize, config.chunkOverlap, libs);
    var model := EmbeddingModelChoice(embeddingModel, config.defaultEmbeddingModel);
    var ids :- StoreChunks(client, collection, model, chunks, libs.sha256);
    var written := config.Save();
    RoundTrip(config.Snapshot());
    return Success((ids, written.value));
  }

  // ---------------------------------------------------------------------------
  // remove

  /** What `remove` deletes. */
  datatype Removal = DeleteWhere(where: Where) | DropCollection | ClearRecords

  /**
   * The `remove` dispatch: a filter deletes only the matching records;
   * otherwise a named collection other than "default" is dropped unless
   * `--keep` is given, and every other case empties the collection.
   */
  function RemoveAction(collection: string, where: Option<Where>, keep: bool): (a: Removal)
    ensures a.DeleteWhere? <==> where.Some?
    ensures a.DeleteWhere? ==> a.where == where.value
    ensures a == DropCollection <==> where.None? && collection != DefaultCollection && !keep
    ensures collection == DefaultCollection ==> a != DropCollection
  {
    if where.Some? then DeleteWhere(where.value)
    else if collection != DefaultCollection && !keep then DropCollection
    else ClearRecords
  }

  /** What `remove` did. */
  datatype Removed = Deleted(ids: set<Id>) | Dropped(existed: bool) | Cleared(ids: set<Id>)

  /**
   * `remove`: binding happens before the dispatch and refuses a collection
   * that does not exist, so the branch reporting a missing collection is
   * never reached: a dropped collection always existed. Emptying a
   * collection that has no records is refused by Chroma.
   */
  method Remove(doc: Value, client: Client, collection: string, where: Option<Where>, keep: bool)
    returns (r: Result<Removed, Error>)
    modifies client
    ensures r.Success? <==>
              && DecodeConfig(doc).Success?
              && OpenCollection(old(client.collections), collection, Null).Success?
              && !(&& RemoveAction(collection, where, keep) == ClearRecords
                   && collection in old(client.collections)
                   && old(client.collections[collection].records) == map[])
    ensures DecodeConfig(doc).Success? && OpenCollection(old(client.collections), collection, Null).Success?
            && collection in old(client.collections) && RemoveAction(collection, where, keep) == ClearRecords
            && old(client.collections[collection].records) == map[] ==>
              r == Failure(NothingToDelete)
    ensures r.Failure? ==> client.collections == old(client.collections)
    ensures DecodeConfig(doc).Success? && collection !in old(client.collections) ==> r.Failure? && r.error.ValueError?
    ensures r.Success? && r.value.Dropped? ==> r.value.existed
    ensures r.Success? ==>
              var c := old(client.collections[collection]);
              match RemoveAction(collection, where, keep)
              case DeleteWhere(w) =>
                r.value == Deleted(MatchingIds(c, Some(w)))
                && client.collections == old(client.collections)[collection := DeleteMatching(c, w)]
              case DropCollection =>
                r.value == Dropped(true) && client.collections == old(client.collections) - {collection}
              case ClearRecords =>
                r.value == Cleared(c.records.Keys)
                && client.collections == old(client.collections)[collection := Collection(c.metadata, map[])]
  {
    var config := new Config();
    var loaded := config.Load(doc);
    if loaded.Failure? {
      return Failure(loaded.error);
    }
    var db :- ChromaDB.Open(client, Some(collection), Null);
    match RemoveAction(collection, where, keep)
    case DeleteWhere(w) =>
      var ids := db.DeleteWhere(w);
      r := Success(Deleted(ids));
    case DropCollection =>
      var existed := db.DeleteCollection();
      r := Success(Dropped(existed));
    case ClearRecords =>
      var ids :- db.DeleteAllRecords();
      r := Success(Cleared(ids));
  }

  // ---------------------------------------------------------------------------
  // query

  /** `[p for p in personas if p.name == name]`. */
  function Named(personas: seq<Persona>, name: string): (r: seq<Persona>)
    ensures |r| <= |personas|
    ensures forall p :: p in r ==> p in personas && p.name == Str(name)
  {
    if personas == [] then []
    else (if personas[0].name == Str(name) then [personas[0]] else []) + Named(personas[1..], name)
  }

  /** The persona `query` uses: the first of the named ones, an IndexError when there is none. */
  function FindPersona(personas: seq<Persona>, name: string): (r: Result<Persona, Error>)
    ensures r.Failure? ==> r.error == IndexError
    ensures r.Success? ==> r.value in personas && r.value.name == Str(name)
  {
    var named := Named(personas, name);
    if |named| > 0 then Success(named[0]) else Failure(IndexError)
  }

  /** The lookup succeeds exactly when some persona has the name, and then yields the first such persona. */
  lemma {:induction false} FindPersonaFirst(personas: seq<Persona>, name: string)
    ensures FindPersona(personas, name).Success? <==>
              exists i :: 0 <= i < |personas| && personas[i].name == Str(name)
    ensures FindPersona(personas, name).Failure? ==> FindPersona(personas, name).error == IndexError
    ensures FindPersona(personas, name).Success? ==>
              exists i :: 0 <= i < |personas| && personas[i] == FindPersona(personas, name).value
                          && personas[i].name == Str(name)
                          && forall j :: 0 <= j < i ==> personas[j].name != Str(name)
  {
    if personas != [] && personas[0].name != Str(name) {
      var rest := personas[1..];
      FindPersonaFirst(rest, name);
      assert Named(personas, name) == Named(rest, name);
      if FindPersona(rest, name).Success? {
        var i :| 0 <= i < |rest| && rest[i] == FindPersona(rest, name).value && rest[i].name == Str(name)
                 && forall j :: 0 <= j < i ==> rest[j].name != Str(name);
        assert personas[i + 1] == rest[i];
      } else {
        forall i | 0 <= i < |personas|
          ensures personas[i].name != Str(name)
        {
          if i > 0 { assert personas[i] == rest[i - 1]; }
        }
      }
    } else if personas != [] {
      assert personas[0] == Named(personas, name)[0];
    }
  }

  /** The name reported for a source: its "loc" (the page URL) when non-empty, else its "source". */
  function SourceName(doc: Document): (n: Option<string>)
    ensures Truthy(Get(doc, LocKey)) ==> n == Some(doc.metadata[LocKey])
    ensures !Truthy(Get(doc, LocKey)) ==> n == Get(doc, SourceKey)
  {
    var loc := Get(doc, LocKey);
    if Truthy(loc) then loc else Get(doc, SourceKey)
  }

  /** One name per retrieved document, in retrieval order. */
  function SourceNames(sources: seq<Document>): (names: seq<Option<string>>)
    ensures |names| == |sources|
    ensures forall i :: 0 <= i < |sources| ==> names[i] == SourceName(sources[i])
  {
    seq(|sources|, i requires 0 <= i < |sources| => SourceName(sources[i]))
  }

  /** The LLM for `query`: the option when given, the configured default otherwise. */
  function LlmChoice(option: Option<string>, configured: Value): (m: Value)
    ensures option.Some? ==> m == Str(option.value)
    ensures option.None? ==> m == configured
  {
    if option.Some? then Str(option.value) else configured
  }

  /** The libraries `query` calls, each taken as a parameter. */
  datatype QueryLibraries = QueryLibraries(
    retriever: (DbHandle, int) -> Retriever,
    render: Render,
    generate: Generate)

  datatype Reply = Reply(response: string, sourceNames: seq<Option<string>>)

  /**
   * `query`: the answer of the RAG chain built from the named persona and
   * the chosen LLM over the bound collection, with one source name per
   * retrieved document. The store is never changed: binding without an
   * embedding model cannot create a collection.
   */
  method QueryCommand(doc: Value, client: Client, question: string, collection: string, persona: string,
                      llm: Option<string>, k: int, libs: QueryLibraries)
    returns (r: Result<Reply, Error>)
    modifies client
    ensures client.collections == old(client.collections)
    ensures r.Success? <==>
              && DecodeConfig(doc).Success?
              && OpenCollection(old(client.collections), collection, Null).Success?
              && FindPersona(DecodeConfig(doc).value.personas, persona).Success?
    ensures r.Success? ==>
              var settings := DecodeConfig(doc).value;
              var handle := DbHandle(collection, OpenCollection(old(client.collections), collection, Null).value.embeddingModel);
              var rag := NewRag(libs.retriever(handle, k), FindPersona(settings.personas, persona).value,
                                LlmChoice(llm, settings.defaultLlm));
              var answer := rag.Ask(question, libs.render, libs.generate);
              r.value == Reply(answer.response, SourceNames(answer.sources))
  {
    var config := new Config();
    var loaded := config.Load(doc);
    if loaded.Failure? {
      return Failure(loaded.error);
    }
    var db :- ChromaDB.Open(client, Some(collection), Null);
    var chosen :- FindPersona(config.personas, persona);
    var model := LlmChoice(llm, config.defaultLlm);
    var rag := NewRag(libs.retriever(db.db.value, k), chosen, model);
    var answer := rag.Ask(question, libs.render, libs.generate);
    return Success(Reply(answer.response, SourceNames(answer.sources)));
  }
}

=== FILE: config.dfy ===
/**
 * The configuration object (anyqa/models/config.py): five settings that
 * are read from, and written back to, a nested YAML document. The document
 * is taken as an already-parsed value; reading and writing the file is not
 * modelled.
 */
module Configuration {
  import opened Wrappers
  import opened Python
  import Query

  /** The settings a Config holds; an embedding model never assigned is None. */
  datatype Settings = Settings(
    chunkSize: Value,
    chunkOverlap: Value,
    personas: seq<Query.Persona>,
    defaultLlm: Value,
    defaultEmbeddingModel: Option<Value>)

  const ChunkingKey := "chunking"
  const ChunkSizeKey := "chunk-size"
  const ChunkOverlapKey := "chunk-overlap"
  const PersonasKey := "personas"
  const DefaultsKey := "defaults"
  const LlmKey := "llm"
  const EmbeddingModelKey := "embedding-model"

  /** The settings of a freshly constructed Config. */
  const Fresh := Settings(Null, Null, [], Null, None)

  /** `[persona.to_dict() for persona in personas]`. */
  function EncodePersonas(personas: seq<Query.Persona>): (v: Value)
    ensures v.List? && |v.items| == |personas|
    ensures forall i :: 0 <= i < |personas| ==> v.items[i] == personas[i].ToDict()
  {
    List(seq(|personas|, i requires 0 <= i < |personas| => personas[i].ToDict()))
  }

  /** `to_dict()`: an AttributeError when the embedding model was never assigned. */
  function SettingsToDict(s: Settings): (r: Result<Value, Error>)
    ensures r.Failure? <==> s.defaultEmbeddingModel.None?
    ensures r.Failure? ==> r.error == AttributeError("default_embedding_model")
  {
    if s.defaultEmbeddingModel.None? then Failure(AttributeError("default_embedding_model"))
    else
      Success(Dict(map[
        ChunkingKey := Dict(map[ChunkSizeKey := s.chunkSize, ChunkOverlapKey := s.chunkOverlap]),
        PersonasKey := EncodePersonas(s.personas),
        DefaultsKey := Dict(map[LlmKey := s.defaultLlm, EmbeddingModelKey := s.defaultEmbeddingModel.value])
      ]))
  }

  /** `config[outer][inner]`. */
  function Field(doc: Value, outer: string, inner: string): (r: Result<Value, Error>) {
    var section :- Subscript(doc, outer);
    Subscript(section, inner)
  }

  /** `[Persona(**p) for p in items]`: the first item that is not a persona's keywords raises. */
  function DecodeItems(items: seq<Value>): (r: Result<seq<Query.Persona>, Error>)
    ensures r.Success? ==> |r.value| == |items|
    ensures r.Failure? ==> r.error == TypeError
  {
    if items == [] then Success([])
    else
      var done :- DecodeItems(items[..|items| - 1]);
      var persona :- Query.FromKeywords(items[|items| - 1]);
      Success(done + [persona])
  }

  /**
   * The persona comprehension over `config["personas"]`: a list decodes item
   * by item; iterating a mapping or a string yields keys or characters, which
   * are not mappings, so only an empty one yields no personas; anything else
   * is not iterable.
   */
  function DecodePersonas(v: Value): (r: Result<seq<Query.Persona>, Error>)
    ensures r.Failure? ==> r.error == TypeError
  {
    match v
    case List(items) => DecodeItems(items)
    case Dict(entries) => if entries == map[] then Success([]) else Failure(TypeError)
    case Str(s) => if s == "" then Success([]) else Failure(TypeError)
    case _ => Failure(TypeError)
  }

  /** `Config.load()` as a whole: the settings read from the document, or the first error raised. */
  function DecodeConfig(doc: Value): (r: Result<Settings, Error>)
    ensures r.Success? ==> r.value.defaultEmbeddingModel.Some?
  {
    var size :- Field(doc, ChunkingKey, ChunkSizeKey);
    var overlap :- Field(doc, ChunkingKey, ChunkOverlapKey);
    var personasValue :- Subscript(doc, PersonasKey);
    var personas :- DecodePersonas(personasValue);
    var llm :- Field(doc, DefaultsKey, LlmKey);
    var embeddingModel :- Field(doc, DefaultsKey, EmbeddingModelKey);
    Success(Settings(size, overlap, personas, llm, Some(embeddingModel)))
  }

  /**
   * The settings after `load()` from `prev`: the fields are assigned one at a
   * time, so an error leaves the fields before it assigned and the rest as
   * they were.
   */
  function AfterLoad(prev: Settings, doc: Value): (s: Settings)
    ensures Field(doc, ChunkingKey, ChunkSizeKey).Failure? ==> s == prev
    ensures Field(doc, ChunkingKey, ChunkSizeKey).Success? ==> s.chunkSize == Field(doc, ChunkingKey, ChunkSizeKey).value
  {
    match Field(doc, ChunkingKey, ChunkSizeKey)
    case Failure(_) => prev
    case Success(size) =>
      var s1 := prev.(chunkSize := size);
      match Field(doc, ChunkingKey, ChunkOverlapKey)
      case Failure(_) => s1
      case Success(overlap) =>
        var s2 := s1.(chunkOverlap := overlap);
        var personas := (var pv :- Subscript(doc, PersonasKey); DecodePersonas(pv));
        if personas.Failure? then s2
        else
          var s3 := s2.(personas := personas.value);
          match Field(doc, DefaultsKey, LlmKey)
          case Failure(_) => s3
          case Success(llm) =>
            var s4 := s3.(defaultLlm := llm);
            match Field(doc, DefaultsKey, EmbeddingModelKey)
            case Failure(_) => s4
            case Success(m) => s4.(defaultEmbeddingModel := Some(m))
  }

  /** A successful load overwrites every field, whatever the previous values were. */
  lemma LoadOverwrites(prev: Settings, doc: Value)
    requires DecodeConfig(doc).Success?
    ensures AfterLoad(prev, doc) == DecodeConfig(doc).value
  {
  }

  /**
   * A failed load never reaches the embedding model, so a fresh Config whose
   * load fails still cannot be saved.
   */
  lemma FailedLoadKeepsEmbeddingModel(prev: Settings, doc: Value)
    requires DecodeConfig(doc).Failure?
    ensures AfterLoad(prev, doc).defaultEmbeddingModel == prev.defaultEmbeddingModel
    ensures SettingsToDict(AfterLoad(Fresh, doc)).Failure?
  {
  }

  lemma {:induction false} DecodeEncodedItems(personas: seq<Query.Persona>)
    ensures DecodeItems(EncodePersonas(personas).items) == Success(personas)
  {
    var items := EncodePersonas(personas).items;
    if personas != [] {
      var n := |personas| - 1;
      DecodeEncodedItems(personas[..n]);
      assert items[..n] == EncodePersonas(personas[..n]).items;
      Query.PersonaRoundTrip(personas[n]);
      assert personas[..n] + [personas[n]] == personas;
    }
  }

  /**
   * Loading the document that `to_dict()` produced restores all five
   * settings; the personas keep their number, order, names and templates.
   */
  lemma RoundTrip(s: Settings)
    requires SettingsToDict(s).Success?
    ensures DecodeConfig(SettingsToDict(s).value) == Success(s)
  {
    DecodeEncodedItems(s.personas);
  }

  class Config {
    var chunkSize: Value
    var chunkOverlap: Value
    var personas: seq<Query.Persona>
    var defaultLlm: Value
    /** None until assigned: the attribute does not exist on a fresh Config. */
    var defaultEmbeddingModel: Option<Value>

    function Snapshot(): Settings
      reads this
    {
      Settings(chunkSize, chunkOverlap, personas, defaultLlm, defaultEmbeddingModel)
    }

    /** A fresh Config: no sizes, no personas, no LLM, and no embedding model attribute, so it cannot be saved. */
    constructor ()
      ensures Snapshot() == Fresh
      ensures ToDict() == Failure(AttributeError("default_embedding_model"))
    {
      chunkSize := Null;
      chunkOverlap := Null;
      personas := [];
      defaultLlm := Null;
      defaultEmbeddingModel := None;
    }

    /**
     * `load()` from the parsed configuration document: returns the document
     * when every field was read, and leaves the fields as AfterLoad says
     * either way.
     */
    method Load(doc: Value) returns (r: Result<Value, Error>)
      modifies this
      ensures Snapshot() == AfterLoad(old(Snapshot()), doc)
      ensures r.Success? <==> DecodeConfig(doc).Success?
      ensures r.Success? ==> r.value == doc && Snapshot() == DecodeConfig(doc).value
      ensures r.Failure? ==> DecodeConfig(doc) == Failure(r.error)
    {
      var size :- Field(doc, ChunkingKey, ChunkSizeKey);
      chunkSize := size;
      var overlap :- Field(doc, ChunkingKey, ChunkOverlapKey);
      chunkOverlap := overlap;
      var personasValue :- Subscript(doc, PersonasKey);
      var loaded :- DecodePersonas(personasValue);
      personas := loaded;
      var llm :- Field(doc, DefaultsKey, LlmKey);
      defaultLlm := llm;
      var embeddingModel :- Field(doc, DefaultsKey, EmbeddingModelKey);
      defaultEmbeddingModel := Some(embeddingModel);
      return Success(doc);
    }

    /** `to_dict()`. */
    function ToDict(): (r: Result<Value, Error>)
      reads this
      ensures r.Success? ==> DecodeConfig(r.value) == Success(Snapshot())
    {
      var d := SettingsToDict(Snapshot());
      if d.Success? then RoundTrip(Snapshot()); d else d
    }

    /** `save()`: the document written to the configuration file, or the error `to_dict()` raises. */
    method Save() returns (written: Result<Value, Error>)
      ensures written == ToDict()
      ensures written.Failure? <==> defaultEmbeddingModel.None?
    {
      written := SettingsToDict(Snapshot());
    }
  }
}

=== FILE: document_loaders.dfy ===
/**
 * Directory and sitemap loaders (anyqa/models/document_loaders.py).
 *
 * The filesystem walk, the LangChain file loaders, the regex engine and the
 * sitemap crawler are parameters: `os.walk` output is a sequence of
 * WalkEntry, `re.match` a Matcher, a loader class's `load()` a Parser.
 */
module DocumentLoaders {
  import opened Wrappers
  import opened Python
  import opened Documents
  import opened PosixPath

  /** The LangChain loader classes DOCUMENT_MAP names. */
  datatype LoaderKind =
    | UnstructuredHtml
    | Text
    | UnstructuredMarkdown
    | UnstructuredFile
    | Csv
    | UnstructuredExcel
    | Docx2txt

  const DocumentMap: map<string, LoaderKind> := map[
    ".html" := UnstructuredHtml,
    ".txt" := Text,
    ".md" := UnstructuredMarkdown,
    ".py" := Text,
    ".pdf" := UnstructuredFile,
    ".csv" := Csv,
    ".xls" := UnstructuredExcel,
    ".xlsx" := UnstructuredExcel,
    ".docx" := Docx2txt,
    ".doc" := Docx2txt
  ]

  /** `loader_class(file_path).load()`: the documents a loader of that kind reads from the file. */
  type Parser = (LoaderKind, string) -> seq<Document>

  /** `re.match(pattern, name) is not None`: the pattern matches at the start of the name. */
  type Matcher = (string, string) -> bool

  /** `SitemapLoader(url, restrict_to_same_domain=True, filter_urls=patterns).load()`. */
  type Sitemap = (string, seq<string>) -> seq<Document>

  /** One triple of `os.walk`: a directory and the names of the files directly in it. */
  datatype WalkEntry = WalkEntry(root: string, files: seq<string>)

  const UndefinedType := ValueError("Document type is undefined")

  /**
   * `load_single_document(file_path)`: refuses an extension DOCUMENT_MAP does
   * not know, otherwise returns the first document the loader reads (an
   * IndexError when it reads none) tagged with the extension.
   */
  function LoadSingleDocument(filePath: string, parse: Parser): (r: Result<Document, Error>)
    ensures r.Success? ==> ExtensionKey in r.value.metadata
  {
    var fileExtension := Ext(filePath);
    if fileExtension !in DocumentMap then Failure(UndefinedType)
    else
      var loaded := parse(DocumentMap[fileExtension], filePath);
      if |loaded| == 0 then Failure(IndexError)
      else Success(WithMetadata(loaded[0], ExtensionKey, fileExtension))
  }

  /**
   * What loading one file promises: "undefined" exactly for an unsupported
   * extension; on success the first loaded document, content and metadata
   * kept, with metadata "extension" set to the extension, leading dot included.
   */
  lemma LoadSingleDocumentSpec(filePath: string, parse: Parser)
    ensures LoadSingleDocument(filePath, parse) == Failure(UndefinedType) <==> Ext(filePath) !in DocumentMap
    ensures Ext(filePath) in DocumentMap ==>
              var r := LoadSingleDocument(filePath, parse);
              var loaded := parse(DocumentMap[Ext(filePath)], filePath);
              && (r.Success? <==> |loaded| > 0)
              && (r.Failure? ==> r.error == IndexError)
              && (r.Success? ==>
                    && r.value.content == loaded[0].content
                    && r.value.metadata[ExtensionKey] == Ext(filePath)
                    && r.value.metadata[ExtensionKey][0] == ExtSep
                    && forall k :: k in loaded[0].metadata && k != ExtensionKey ==>
                                     k in r.value.metadata && r.value.metadata[k] == loaded[0].metadata[k])
  {
  }

  /** How many separators `root` lies below `absPath`: `root[len(abs_path):].count(os.sep)`. */
  function RelativeDepth(root: string, absPath: string): nat {
    Count(Drop(root, |absPath|), Sep)
  }

  /** The depth test of the walk. */
  function DepthAllows(root: string, absPath: string, depth: int): (ok: bool)
    ensures depth < 0 ==> ok
    ensures depth == 0 ==> !ok
    ensures depth > 0 ==> (ok <==> RelativeDepth(root, absPath) < depth)
  {
    RelativeDepth(root, absPath) < depth || depth < 0
  }

  /** A file name some pattern matches at its start and whose extension has a loader. */
  predicate Wanted(name: string, pattern: seq<string>, matches: Matcher) {
    (exists pat :: pat in pattern && matches(pat, name)) && Ext(name) in DocumentMap
  }

  /** The depth test and the file-name test, as the walk applies them. */
  function DepthTest(absPath: string, depth: int): string -> bool {
    root => DepthAllows(root, absPath, depth)
  }

  function NameTest(pattern: seq<string>, matches: Matcher): string -> bool {
    name => Wanted(name, pattern, matches)
  }

  /** The paths a filter selects among the files of one directory, in listing order. */
  function FilePaths(root: string, files: seq<string>, wanted: string -> bool): (paths: seq<string>)
    ensures |paths| <= |files|
  {
    if files == [] then []
    else
      var name := files[|files| - 1];
      FilePaths(root, files[..|files| - 1], wanted) + (if wanted(name) then [Join(root, name)] else [])
  }

  /** The paths selected from a walk, directory by directory, in walk order. */
  function Collect(walk: seq<WalkEntry>, allows: string -> bool, wanted: string -> bool): seq<string> {
    if walk == [] then []
    else
      var entry := walk[|walk| - 1];
      Collect(walk[..|walk| - 1], allows, wanted)
        + (if allows(entry.root) then FilePaths(entry.root, entry.files, wanted) else [])
  }

  /** The paths `get_path_documents` selects from a walk. */
  function WalkPaths(walk: seq<WalkEntry>, absPath: string, depth: int, pattern: seq<string>, matches: Matcher): (paths: seq<string>)
    ensures walk == [] ==> paths == []
  {
    Collect(walk, DepthTest(absPath, depth), NameTest(pattern, matches))
  }

  lemma {:induction false} FilePathsSelect(root: string, files: seq<string>, wanted: string -> bool, p: string)
    ensures p in FilePaths(root, files, wanted) <==>
            exists j :: 0 <= j < |files| && wanted(files[j]) && p == Join(root, files[j])
  {
    if files != [] {
      var n := |files| - 1;
      var prefix := files[..n];
      var front := FilePaths(root, prefix, wanted);
      var last: seq<string> := if wanted(files[n]) then [Join(root, files[n])] else [];
      assert FilePaths(root, files, wanted) == front + last;
      FilePathsSelect(root, prefix, wanted, p);
      if p in front {
        var j :| 0 <= j < n && wanted(prefix[j]) && p == Join(root, prefix[j]);
        assert files[j] == prefix[j];
      }
      if exists j :: 0 <= j < |files| && wanted(files[j]) && p == Join(root, files[j]) {
        var j :| 0 <= j < |files| && wanted(files[j]) && p == Join(root, files[j]);
        if j < n {
          assert files[j] == prefix[j];
          assert p in front;
        } else {
          assert p in last;
        }
      }
    }
  }

  /** A path joins some directory of the walk that passes `allows` with one of its files that passes `wanted`. */
  ghost predicate SelectedFrom(walk: seq<WalkEntry>, allows: string -> bool, wanted: string -> bool, p: string) {
    exists i, j :: 0 <= i < |walk| && 0 <= j < |walk[i].files|
                   && allows(walk[i].root) && wanted(walk[i].files[j])
                   && p == Join(walk[i].root, walk[i].files[j])
  }

  lemma {:induction false} CollectSelect(walk: seq<WalkEntry>, allows: string -> bool, wanted: string -> bool, p: string)
    ensures p in Collect(walk, allows, wanted) <==> SelectedFrom(walk, allows, wanted, p)
  {
    if walk != [] {
      var n := |walk| - 1;
      var prefix := walk[..n];
      var last := walk[n];
      var tail := if allows(last.root) then FilePaths(last.root, last.files, wanted) else [];
      assert Collect(walk, allows, wanted) == Collect(prefix, allows, wanted) + tail;
      CollectSelect(prefix, allows, wanted, p);
      FilePathsSelect(last.root, last.files, wanted, p);
      if p in Collect(walk, allows, wanted) {
        if p in Collect(prefix, allows, wanted) {
          SelectedFromPrefix(walk, allows, wanted, p);
        } else {
          assert p in tail;
          var j :| 0 <= j < |last.files| && wanted(last.files[j]) && p == Join(last.root, last.files[j]);
          assert walk[n].files[j] == last.files[j];
        }
      }
      if SelectedFrom(walk, allows, wanted, p) {
        var i, j :| 0 <= i < |walk| && 0 <= j < |walk[i].files|
                    && allows(walk[i].root) && wanted(walk[i].files[j])
                    && p == Join(walk[i].root, walk[i].files[j]);
        if i < n {
          assert walk[i] == prefix[i];
          assert SelectedFrom(prefix, allows, wanted, p);
        } else {
          assert p in tail;
        }
      }
    }
  }

  lemma SelectedFromPrefix(walk: seq<WalkEntry>, allows: string -> bool, wanted: string -> bool, p: string)
    requires |walk| > 0 && SelectedFrom(walk[..|walk| - 1], allows, wanted, p)
    ensures SelectedFrom(walk, allows, wanted, p)
  {
    var prefix := walk[..|walk| - 1];
    var i, j :| 0 <= i < |prefix| && 0 <= j < |prefix[i].files|
                && allows(prefix[i].root) && wanted(prefix[i].files[j])
                && p == Join(prefix[i].root, prefix[i].files[j]);
    assert walk[i] == prefix[i];
  }

  /**
   * A path is selected exactly when it joins a directory of the walk that
   * passes the depth test with one of its files that some pattern matches at
   * its start and whose extension is a DOCUMENT_MAP key.
   */
  lemma WalkPathsSelect(walk: seq<WalkEntry>, absPath: string, depth: int, pattern: seq<string>, matches: Matcher, p: string)
    ensures p in WalkPaths(walk, absPath, depth, pattern, matches) <==>
            exists i, j :: 0 <= i < |walk| && 0 <= j < |walk[i].files|
                           && DepthAllows(walk[i].root, absPath, depth)
                           && (exists pat :: pat in pattern && matches(pat, walk[i].files[j]))
                           && Ext(walk[i].files[j]) in DocumentMap
                           && p == Join(walk[i].root, walk[i].files[j])
  {
    CollectSelect(walk, DepthTest(absPath, depth), NameTest(pattern, matches), p);
    var allows, wanted := DepthTest(absPath, depth), NameTest(pattern, matches);
    if SelectedFrom(walk, allows, wanted, p) {
      var i, j :| 0 <= i < |walk| && 0 <= j < |walk[i].files|
                  && allows(walk[i].root) && wanted(walk[i].files[j])
                  && p == Join(walk[i].root, walk[i].files[j]);
    }
  }

  /** Depth 0 and an empty pattern list both select nothing. */
  lemma NothingSelected(walk: seq<WalkEntry>, absPath: string, depth: int, pattern: seq<string>, matches: Matcher)
    requires depth == 0 || pattern == []
    ensures WalkPaths(walk, absPath, depth, pattern, matches) == []
  {
    if WalkPaths(walk, absPath, depth, pattern, matches) != [] {
      var p := WalkPaths(walk, absPath, depth, pattern, matches)[0];
      WalkPathsSelect(walk, absPath, depth, pattern, matches, p);
    }
  }

  /** File names from `os.walk` never contain a separator. */
  predicate PlainNames(walk: seq<WalkEntry>) {
    forall i, j :: 0 <= i < |walk| && 0 <= j < |walk[i].files| ==> Sep !in walk[i].files[j]
  }

  /**
   * Every selected path has a supported extension, so loading it never raises
   * "Document type is undefined".
   */
  lemma SelectedPathsAreSupported(walk: seq<WalkEntry>, absPath: string, depth: int, pattern: seq<string>, matches: Matcher, parse: Parser)
    requires PlainNames(walk)
    ensures forall p :: p in WalkPaths(walk, absPath, depth, pattern, matches) ==>
              Ext(p) in DocumentMap && LoadSingleDocument(p, parse) != Failure(UndefinedType)
  {
    forall p | p in WalkPaths(walk, absPath, depth, pattern, matches)
      ensures Ext(p) in DocumentMap
    {
      WalkPathsSelect(walk, absPath, depth, pattern, matches, p);
      var i, j :| 0 <= i < |walk| && 0 <= j < |walk[i].files|
                  && DepthAllows(walk[i].root, absPath, depth)
                  && (exists pat :: pat in pattern && matches(pat, walk[i].files[j]))
                  && Ext(walk[i].files[j]) in DocumentMap
                  && p == Join(walk[i].root, walk[i].files[j]);
      ExtOfJoin(walk[i].root, walk[i].files[j]);
    }
  }

  /** Loading the file behind one path. */
  function FileLoader(parse: Parser): string -> Result<Document, Error> {
    path => LoadSingleDocument(path, parse)
  }

  /** Loading each path in order; the first failure is the result. */
  function LoadEach(paths: seq<string>, load: string -> Result<Document, Error>): (r: Result<seq<Document>, Error>)
    ensures r.Success? <==> forall i :: 0 <= i < |paths| ==> load(paths[i]).Success?
    ensures r.Success? ==>
              && |r.value| == |paths|
              && forall i :: 0 <= i < |paths| ==> load(paths[i]) == Success(r.value[i])
    ensures r.Failure? ==>
              exists i :: 0 <= i < |paths| && load(paths[i]) == Failure(r.error)
                          && forall j :: 0 <= j < i ==> load(paths[j]).Success?
  {
    if paths == [] then Success([])
    else
      var done :- LoadEach(paths[..|paths| - 1], load);
      var doc :- load(paths[|paths| - 1]);
      Success(done + [doc])
  }

  lemma LoadEachStep(paths: seq<string>, load: string -> Result<Document, Error>, i: nat)
    requires i < |paths| && LoadEach(paths[..i], load).Success? && load(paths[i]).Success?
    ensures LoadEach(paths[..i + 1], load) == Success(LoadEach(paths[..i], load).value + [load(paths[i]).value])
  {
    assert paths[..i + 1][..i] == paths[..i];
  }

  /** Once a load fails after successful ones, that failure is the result for all the paths. */
  lemma LoadEachStops(paths: seq<string>, load: string -> Result<Document, Error>, i: nat)
    requires i < |paths| && LoadEach(paths[..i], load).Success? && load(paths[i]).Failure?
    ensures LoadEach(paths, load) == Failure(load(paths[i]).error)
  {
    forall j | 0 <= j < i ensures load(paths[j]).Success? {
      assert paths[j] == paths[..i][j];
    }
    var all := LoadEach(paths, load);
    var k :| 0 <= k < |paths| && load(paths[k]) == Failure(all.error)
             && forall j :: 0 <= j < k ==> load(paths[j]).Success?;
    assert k == i;
  }

  /** The loader for a local directory tree; `path` is taken to be absolute and normalised. */
  datatype DirectoryDocumentLoader = DirectoryDocumentLoader(path: string, depth: int, pattern: seq<string>) {

    /** The files of one directory the inner loop of `get_path_documents()` selects, as paths, in listing order. */
    method SelectFiles(root: string, files: seq<string>, matches: Matcher) returns (selected: seq<string>)
      ensures selected == FilePaths(root, files, NameTest(pattern, matches))
    {
      selected := [];
      for j := 0 to |files|
        invariant selected == FilePaths(root, files[..j], NameTest(pattern, matches))
      {
        var fileName := files[j];
        assert files[..j + 1][..j] == files[..j];
        if exists pat :: pat in pattern && matches(pat, fileName) {
          var fileExtension := Ext(fileName);
          var sourceFilePath := Join(root, fileName);
          if fileExtension in DocumentMap {
            assert NameTest(pattern, matches)(fileName);
            selected := selected + [sourceFilePath];
          } else {
            assert !NameTest(pattern, matches)(fileName);
          }
        } else {
          assert !NameTest(pattern, matches)(fileName);
        }
      }
      assert files[..|files|] == files;
    }

    /** The first loop of `get_path_documents()`: the paths of the walk's files that are selected, in walk order. */
    method SelectPaths(walk: seq<WalkEntry>, matches: Matcher) returns (paths: seq<string>)
      ensures paths == WalkPaths(walk, path, depth, pattern, matches)
    {
      paths := [];
      var absPath := path;
      for i := 0 to |walk|
        invariant paths == WalkPaths(walk[..i], absPath, depth, pattern, matches)
      {
        var entry := walk[i];
        assert walk[..i + 1][..i] == walk[..i];
        if Count(Drop(entry.root, |absPath|), Sep) < depth || depth < 0 {
          assert DepthTest(absPath, depth)(entry.root);
          var selected := SelectFiles(entry.root, entry.files, matches);
          paths := paths + selected;
        } else {
          assert !DepthTest(absPath, depth)(entry.root);
        }
      }
      assert walk[..|walk|] == walk;
    }

    /**
     * `get_path_documents()`: select the paths, then load one document per
     * selected path, in selection order; the first failing load is the result.
     */
    method GetPathDocuments(walk: seq<WalkEntry>, matches: Matcher, parse: Parser) returns (r: Result<seq<Document>, Error>)
      ensures r == LoadEach(WalkPaths(walk, path, depth, pattern, matches), FileLoader(parse))
    {
      var paths := SelectPaths(walk, matches);
      ghost var load := FileLoader(parse);
      var docs: seq<Document> := [];
      for i := 0 to |paths|
        invariant LoadEach(paths[..i], load) == Success(docs)
      {
        var doc := LoadSingleDocument(paths[i], parse);
        assert load(paths[i]) == doc;
        if doc.Failure? {
          LoadEachStops(paths, load, i);
          return Failure(doc.error);
        }
        LoadEachStep(paths, load, i);
        docs := docs + [doc.value];
      }
      assert paths[..|paths|] == paths;
      return Success(docs);
    }
  }

  /** The sitemap loader; "-1" (unlimited) is stored as a large fixed depth. */
  const UnlimitedWebDepth := 1000

  datatype WebDocumentLoader = WebDocumentLoader(url: string, depth: int, pattern: seq<string>) {

    /** The crawled pages, in crawl order, each tagged with extension ".html". */
    function Crawled(sitemap: Sitemap): (documents: seq<Document>)
      ensures |documents| == |sitemap(url, pattern)|
      ensures forall i :: 0 <= i < |documents| ==>
                documents[i] == WithMetadata(sitemap(url, pattern)[i], ExtensionKey, ".html")
      ensures forall d :: d in documents ==> ExtensionKey in d.metadata && d.metadata[ExtensionKey] == ".html"
    {
      var fetched := sitemap(url, pattern);
      seq(|fetched|, i requires 0 <= i < |fetched| => WithMetadata(fetched[i], ExtensionKey, ".html"))
    }

    /** `load()`: tag every document the sitemap crawl returns, in order. */
    method Load(sitemap: Sitemap) returns (documents: seq<Document>)
      ensures documents == Crawled(sitemap)
    {
      var fetched := sitemap(url, pattern);
      documents := [];
      for i := 0 to |fetched|
        invariant |documents| == i
        invariant forall k :: 0 <= k < i ==> documents[k] == WithMetadata(fetched[k], ExtensionKey, ".html")
      {
        documents := documents + [WithMetadata(fetched[i], ExtensionKey, ".html")];
      }
    }
  }

  /** `WebDocumentLoader(url, depth, pattern)`: -1 becomes 1000, any other depth is kept. */
  function NewWebDocumentLoader(url: string, depth: int, pattern: seq<string>): (l: WebDocumentLoader)
    ensures l.url == url && l.pattern == pattern
    ensures depth == -1 ==> l.depth == UnlimitedWebDepth
    ensures depth != -1 ==> l.depth == depth
  {
    WebDocumentLoader(url, if depth == -1 then UnlimitedWebDepth else depth, pattern)
  }
}

=== FILE: documents.dfy ===
/** LangChain's Document: page content plus a metadata dictionary of strings. */
module Documents {
  import opened Wrappers

  datatype Document = Document(content: string, metadata: map<string, string>)

  const SourceKey := "source"
  const ExtensionKey := "extension"
  const LocKey := "loc"

  /** `doc.metadata[key] = value`, the only change a loader makes to a document it has read. */
  function WithMetadata(doc: Document, key: string, value: string): (r: Document)
    ensures r.content == doc.content
    ensures r.metadata.Keys == doc.metadata.Keys + {key}
    ensures r.metadata[key] == value
    ensures forall k :: k in doc.metadata && k != key ==> r.metadata[k] == doc.metadata[k]
  {
    doc.(metadata := doc.metadata[key := value])
  }

  /** `doc.metadata.get(key)`. */
  function Get(doc: Document, key: string): Option<string> {
    if key in doc.metadata then Some(doc.metadata[key]) else None
  }
}

=== FILE: posix_path.dfy ===
/**
 * The few POSIX path functions the directory loader relies on: `str.rfind`,
 * `str.count`, `os.path.splitext` and `os.path.join`, with '/' as the
 * separator.
 */
module PosixPath {

  const Sep: char := '/'
  const ExtSep: char := '.'

  /** `s.rfind(c)`: the last index holding c, or -1. */
  function RFind(s: string, c: char): (r: int)
    ensures -1 <= r < |s|
    ensures r >= 0 ==> s[r] == c
    ensures forall j :: r < j < |s| ==> s[j] != c
  {
    if |s| == 0 then -1
    else if s[|s| - 1] == c then |s| - 1
    else RFind(s[..|s| - 1], c)
  }

  /** The three ensures of RFind pin its result down. */
  lemma RFindUnique(s: string, c: char, r: int)
    requires -1 <= r < |s|
    requires r >= 0 ==> s[r] == c
    requires forall j :: r < j < |s| ==> s[j] != c
    ensures r == RFind(s, c)
  {
  }

  /** The last c in a + b lies in b if b holds one, otherwise it is the last one in a. */
  lemma RFindAppend(a: string, b: string, c: char)
    ensures RFind(a + b, c) == if RFind(b, c) >= 0 then |a| + RFind(b, c) else RFind(a, c)
  {
    var s := a + b;
    var rb := RFind(b, c);
    var ra := RFind(a, c);
    if rb >= 0 {
      assert s[|a| + rb] == b[rb];
      forall j | |a| + rb < j < |s| ensures s[j] != c {
        assert s[j] == b[j - |a|];
      }
      RFindUnique(s, c, |a| + rb);
    } else {
      forall j | ra < j < |s| ensures s[j] != c {
        if j < |a| { assert s[j] == a[j]; } else { assert s[j] == b[j - |a|]; }
      }
      if ra >= 0 { assert s[ra] == a[ra]; }
      RFindUnique(s, c, ra);
    }
  }

  /** `s.count(c)`. */
  function Count(s: string, c: char): (n: nat)
    ensures n <= |s|
    ensures n == 0 <==> c !in s
    ensures n == multiset(s)[c]
  {
    if s == [] then 0
    else
      var front := s[..|s| - 1];
      assert s == front + [s[|s| - 1]];
      assert multiset(s) == multiset(front) + multiset{s[|s| - 1]};
      Count(front, c) + (if s[|s| - 1] == c then 1 else 0)
  }

  /** Python's slice `s[n:]`, which is empty when n is past the end. */
  function Drop(s: string, n: nat): (r: string)
    ensures n <= |s| ==> s == s[..n] + r
    ensures n >= |s| ==> r == []
  {
    if n <= |s| then s[n..] else []
  }

  /**
   * `os.path.splitext(p)`: the extension starts at the last '.' of the final
   * path component, provided some character other than '.' precedes it in
   * that component (so leading dots, as in ".bashrc", never start one).
   */
  function Splitext(p: string): (r: (string, string))
    ensures r.0 + r.1 == p
    ensures r.1 == [] || (r.1[0] == ExtSep && ExtSep !in r.1[1..] && Sep !in r.1)
  {
    var sepIndex := RFind(p, Sep);
    var dotIndex := RFind(p, ExtSep);
    if dotIndex > sepIndex && exists i :: sepIndex + 1 <= i < dotIndex && p[i] != ExtSep then
      (p[..dotIndex], p[dotIndex..])
    else
      (p, [])
  }

  /**
   * When a path has an extension: exactly when its final component holds a
   * '.' preceded by some other character of that component; the extension
   * then runs from the path's last '.' to its end.
   */
  lemma ExtensionPresent(p: string)
    ensures Splitext(p).1 != [] <==>
              exists i, j :: RFind(p, Sep) < j < i < |p| && p[i] == ExtSep && p[j] != ExtSep
    ensures Splitext(p).1 != [] ==> Splitext(p).1 == p[RFind(p, ExtSep)..]
  {
    var sepIndex := RFind(p, Sep);
    var dotIndex := RFind(p, ExtSep);
    if Splitext(p).1 != [] {
      var j :| sepIndex + 1 <= j < dotIndex && p[j] != ExtSep;
      assert sepIndex < j < dotIndex < |p| && p[dotIndex] == ExtSep && p[j] != ExtSep;
    }
    if exists i, j :: sepIndex < j < i < |p| && p[i] == ExtSep && p[j] != ExtSep {
      var i, j :| sepIndex < j < i < |p| && p[i] == ExtSep && p[j] != ExtSep;
      assert i <= dotIndex;
      assert sepIndex + 1 <= j < dotIndex && p[j] != ExtSep;
    }
  }

  /** A plain name has its extension after its only dot. */
  lemma PlainExtension()
    ensures Splitext("a.txt") == ("a", ".txt")
  {
    forall j | 0 <= j < 5 ensures "a.txt"[j] != Sep {
      assert j == 0 || j == 1 || j == 2 || j == 3 || j == 4;
    }
    assert RFind("a.txt", Sep) == -1 by { RFindUnique("a.txt", Sep, -1); }
    assert RFind("a.txt", ExtSep) == 1 by { RFindUnique("a.txt", ExtSep, 1); }
    assert "a.txt"[0] != ExtSep;
    assert "a.txt"[..1] == "a" && "a.txt"[1..] == ".txt";
  }

  /** Only the last dot starts the extension. */
  lemma LastDotExtension()
    ensures Splitext("archive.tar.gz") == ("archive.tar", ".gz")
  {
    var a := "archive.tar.gz";
    forall j | 0 <= j < |a| ensures a[j] != Sep {
      assert a[j] in a;
    }
    assert RFind(a, Sep) == -1 by { RFindUnique(a, Sep, -1); }
    assert RFind(a, ExtSep) == 11 by { RFindUnique(a, ExtSep, 11); }
    assert a[0] != ExtSep;
    assert a[..11] == "archive.tar" && a[11..] == ".gz";
  }

  /** Leading dots and dots in directory names start no extension. */
  lemma NoExtension()
    ensures Splitext(".bashrc") == (".bashrc", "")
    ensures Splitext("dir.d/file") == ("dir.d/file", "")
  {
    assert RFind(".bashrc", ExtSep) == 0 by { RFindUnique(".bashrc", ExtSep, 0); }
    assert RFind("dir.d/file", Sep) == 5 by { RFindUnique("dir.d/file", Sep, 5); }
    assert RFind("dir.d/file", ExtSep) == 3 by { RFindUnique("dir.d/file", ExtSep, 3); }
  }

  /** `os.path.splitext(p)[1]`. */
  function Ext(p: string): string {
    Splitext(p).1
  }

  /** `os.path.join(a, b)` for two components. */
  function Join(a: string, b: string): (r: string)
    ensures |b| > 0 && b[0] == Sep ==> r == b
    ensures (|b| == 0 || b[0] != Sep) && (a == [] || a[|a| - 1] == Sep) ==> r == a + b
    ensures (|b| == 0 || b[0] != Sep) && a != [] && a[|a| - 1] != Sep ==> r == a + [Sep] + b
  {
    if |b| > 0 && b[0] == Sep then b
    else if a == [] || a[|a| - 1] == Sep then a + b
    else a + [Sep] + b
  }

  /** The extension of a path is the extension of the file name after its last separator. */
  lemma ExtAfterSeparator(dir: string, name: string)
    requires |dir| > 0 && dir[|dir| - 1] == Sep
    requires Sep !in name
    ensures Ext(dir + name) == Ext(name)
  {
    var p := dir + name;
    RFindAppend(dir, name, Sep);
    RFindAppend(dir, name, ExtSep);
    assert RFind(name, Sep) == -1;
    var sepIndex := RFind(p, Sep);
    assert sepIndex == |dir| - 1 by { assert RFind(dir, Sep) == |dir| - 1; }
    var dotName := RFind(name, ExtSep);
    var dotIndex := RFind(p, ExtSep);
    if dotName >= 0 {
      assert dotIndex == |dir| + dotName;
      var inP := exists i :: sepIndex + 1 <= i < dotIndex && p[i] != ExtSep;
      var inName := exists i :: 0 <= i < dotName && name[i] != ExtSep;
      if inName {
        var i :| 0 <= i < dotName && name[i] != ExtSep;
        assert p[|dir| + i] == name[i];
      }
      if inP {
        var i :| sepIndex + 1 <= i < dotIndex && p[i] != ExtSep;
        assert p[i] == name[i - |dir|];
      }
      assert p[dotIndex..] == name[dotName..];
    } else {
      assert dotIndex <= sepIndex;
    }
  }

  /** Joining a directory and a plain file name keeps the file's extension. */
  lemma ExtOfJoin(root: string, name: string)
    requires Sep !in name
    ensures Ext(Join(root, name)) == Ext(name)
  {
    assert |name| == 0 || name[0] != Sep by {
      if |name| > 0 { assert name[0] in name; }
    }
    if root == [] {
      assert Join(root, name) == name;
    } else if root[|root| - 1] == Sep {
      assert Join(root, name) == root + name;
      ExtAfterSeparator(root, name);
    } else {
      var dir := root + [Sep];
      assert Join(root, name) == dir + name;
      ExtAfterSeparator(dir, name);
    }
  }
}

=== FILE: python.dfy ===
/**
 * The dynamically typed values the program passes around untyped: what
 * yaml.safe_load returns for the configuration file, what click hands over
 * for options without a declared type, and what Chroma keeps as collection
 * metadata. Also the exceptions the modelled code raises or lets through.
 */
module Python {
  import opened Wrappers

  datatype Value =
    | Null
    | Int(i: int)
    | Str(s: string)
    | List(items: seq<Value>)
    | Dict(entries: map<string, Value>)

  datatype Error =
    | ValueError(message: string)
    | KeyError(key: string)
    | TypeError
    | IndexError
    | AttributeError(name: string)

  /** Python truthiness of an optional string: None and "" are false. */
  predicate Truthy(s: Option<string>) {
    s.Some? && s.value != ""
  }

  /** `v[key]`: a dict yields its entry or raises KeyError; any other value raises TypeError. */
  function Subscript(v: Value, key: string): (r: Result<Value, Error>)
    ensures r.Success? <==> v.Dict? && key in v.entries
    ensures r.Success? ==> r.value == v.entries[key]
    ensures r.Failure? ==> r.error == (if v.Dict? then KeyError(key) else TypeError)
  {
    if !v.Dict? then Failure(TypeError)
    else if key in v.entries then Success(v.entries[key])
    else Failure(KeyError(key))
  }
}

=== FILE: query.dfy ===
/**
 * Retrieval-augmented question answering (anyqa/models/query.py): the
 * prompt context built from retrieved documents, personas, and the shape of
 * a RAG answer. Retrieval, prompt rendering and the LLM are parameters.
 */
module Query {
  import opened Wrappers
  import opened Python
  import opened Documents

  /** The total length of a list of strings. */
  function TotalLength(parts: seq<string>): nat {
    if parts == [] then 0 else TotalLength(parts[..|parts| - 1]) + |parts[|parts| - 1]|
  }

  /** Python's `sep.join(parts)`. */
  function Join(sep: string, parts: seq<string>): (r: string)
    ensures parts == [] ==> r == []
    ensures |parts| == 1 ==> r == parts[0]
  {
    if parts == [] then []
    else if |parts| == 1 then parts[0]
    else
      Join(sep, parts[..|parts| - 1]) + sep + parts[|parts| - 1]
  }

  /** A join is as long as its parts plus one separator per gap. */
  lemma {:induction false} JoinLength(sep: string, parts: seq<string>)
    requires parts != []
    ensures |Join(sep, parts)| == TotalLength(parts) + |sep| * (|parts| - 1)
  {
    if |parts| > 1 {
      var n := |parts| - 1;
      JoinLength(sep, parts[..n]);
      assert |sep| * (|parts| - 1) == |sep| * (n - 1) + |sep|;
    }
  }

  /** Joining a concatenation puts one separator between the joins of the two halves. */
  lemma {:induction false} JoinConcat(sep: string, a: seq<string>, b: seq<string>)
    requires a != [] && b != []
    ensures Join(sep, a + b) == Join(sep, a) + sep + Join(sep, b)
    decreases |b|
  {
    var n := |b| - 1;
    var front := b[..n];
    assert (a + b)[..|a + b| - 1] == a + front;
    assert (a + b)[|a + b| - 1] == b[n];
    assert Join(sep, a + b) == Join(sep, a + front) + sep + b[n];
    if n == 0 {
      assert a + front == a;
    } else {
      JoinConcat(sep, a, front);
      assert Join(sep, b) == Join(sep, front) + sep + b[n];
    }
  }

  /** The page contents of documents, in order. */
  function Contents(docs: seq<Document>): (parts: seq<string>)
    ensures |parts| == |docs|
    ensures forall i :: 0 <= i < |docs| ==> parts[i] == docs[i].content
  {
    seq(|docs|, i requires 0 <= i < |docs| => docs[i].content)
  }

  const Blank := "\n\n"

  /** `format_docs(docs)`: the page contents joined by a blank line. */
  function FormatDocs(docs: seq<Document>): (r: string)
    ensures docs == [] ==> r == []
    ensures |docs| == 1 ==> r == docs[0].content
  {
    Join(Blank, Contents(docs))
  }

  /** The prompt context: empty for no documents, the content itself for one, otherwise every content plus two characters per gap. */
  lemma FormatDocsShape(docs: seq<Document>)
    ensures docs == [] ==> FormatDocs(docs) == ""
    ensures |docs| == 1 ==> FormatDocs(docs) == docs[0].content
    ensures docs != [] ==> |FormatDocs(docs)| == TotalLength(Contents(docs)) + 2 * (|docs| - 1)
  {
    if docs != [] {
      JoinLength(Blank, Contents(docs));
    }
  }

  /** Formatting two batches of documents separates their contexts by one blank line. */
  lemma FormatDocsAppend(a: seq<Document>, b: seq<Document>)
    requires a != [] && b != []
    ensures FormatDocs(a + b) == FormatDocs(a) + Blank + FormatDocs(b)
  {
    assert Contents(a + b) == Contents(a) + Contents(b);
    JoinConcat(Blank, Contents(a), Contents(b));
  }

  /**
   * A persona: a name and a prompt template. The fields hold whatever the
   * configuration file gave them.
   */
  datatype Persona = Persona(name: Value, template: Value) {
    /** `to_dict()`. */
    function ToDict(): (d: Value)
      ensures d.Dict? && d.entries.Keys == {"name", "template"}
      ensures d.entries["name"] == name && d.entries["template"] == template
    {
      Dict(map["name" := name, "template" := template])
    }
  }

  /**
   * `Persona(**kwargs)`: a mapping with exactly the keys "name" and
   * "template"; anything else (not a mapping, a missing or an unexpected
   * keyword) is a TypeError.
   */
  function FromKeywords(kwargs: Value): (r: Result<Persona, Error>)
    ensures r.Success? <==> kwargs.Dict? && kwargs.entries.Keys == {"name", "template"}
    ensures r.Failure? ==> r.error == TypeError
  {
    if kwargs.Dict? && kwargs.entries.Keys == {"name", "template"} then
      Success(Persona(kwargs.entries["name"], kwargs.entries["template"]))
    else
      Failure(TypeError)
  }

  /** `Persona(**p.to_dict())` is `p`, field by field. */
  lemma PersonaRoundTrip(p: Persona)
    ensures FromKeywords(p.ToDict()) == Success(p)
  {
    assert p.ToDict().entries.Keys == {"name", "template"};
  }

  /** Conversely, a persona built from keywords gives those keywords back. */
  lemma KeywordsRoundTrip(kwargs: Value)
    requires FromKeywords(kwargs).Success?
    ensures FromKeywords(kwargs).value.ToDict() == kwargs
  {
    var d := FromKeywords(kwargs).value.ToDict();
    assert d.entries.Keys == kwargs.entries.Keys;
  }

  /** The collection's retriever: the documents found for a question, best first. */
  type Retriever = string -> seq<Document>
  /** `PromptTemplate.from_template(template)` applied to its variables. */
  type Render = (Value, map<string, string>) -> string
  /** The Ollama model named by its first argument, with its output parsed to a string. */
  type Generate = (Value, string) -> string

  datatype Answer = Answer(response: string, sources: seq<Document>)

  /** `RAG(collection, persona, model_name)`: the retriever, the persona's template and the model. */
  datatype Rag = Rag(retrieve: Retriever, template: Value, modelName: Value) {

    /** The prompt variables: the formatted sources as context, and the question as given. */
    function PromptVariables(sources: seq<Document>, question: string): (vars: map<string, string>)
      ensures vars.Keys == {"context", "question"}
      ensures vars["context"] == FormatDocs(sources) && vars["question"] == question
    {
      map["context" := FormatDocs(sources), "question" := question]
    }

    /**
     * `query(question)`: the sources are exactly what the retriever returned
     * for the question, in its order; the response is the model's output on
     * the template rendered with those same sources as context.
     */
    function Ask(question: string, render: Render, generate: Generate): (a: Answer)
      ensures a.sources == retrieve(question)
      ensures a.response == generate(modelName, render(template, PromptVariables(a.sources, question)))
    {
      var sources := retrieve(question);
      Answer(generate(modelName, render(template, PromptVariables(sources, question))), sources)
    }
  }

  function NewRag(retrieve: Retriever, persona: Persona, modelName: Value): (rag: Rag)
    ensures rag.retrieve == retrieve && rag.template == persona.template && rag.modelName == modelName
  {
    Rag(retrieve, persona.template, modelName)
  }
}

=== FILE: vector_db.dfy ===
/**
 * The Chroma-backed vector store (anyqa/models/vector_db.py).
 *
 * The persisted store is a map from collection name to a collection: its
 * metadata (where the embedding model is recorded when the collection is
 * created) and its records by id. Embedding vectors and similarity search
 * belong to Chroma and are not modelled; a record keeps the chunk's content
 * and metadata.
 */
module VectorDb {
  import opened Wrappers
  import opened Python
  import opened Documents

  type Id = string

  /** A `where` filter: every listed metadata field must hold the listed value. */
  type Where = map<string, string>

  const EmbeddingModelKey := "embedding_model"

  /** Chroma's id validation refuses an upsert of no ids. */
  const EmptyIds := ValueError("Expected IDs to be a non-empty list, got 0 IDs")

  /** Chroma refuses a delete given no ids and no filter. */
  const NothingToDelete := ValueError("You must provide either ids, where, or where_document to delete.")

  datatype Record = Record(content: string, metadata: map<string, string>)

  datatype Collection = Collection(metadata: map<string, Value>, records: map<Id, Record>)

  type Store = map<string, Collection>

  function ToRecord(doc: Document): Record {
    Record(doc.content, doc.metadata)
  }

  predicate Matches(rec: Record, where: Where) {
    forall key :: key in where ==> key in rec.metadata && rec.metadata[key] == where[key]
  }

  /** The ids `collection.get(where=...)` lists; no filter lists every record. */
  function MatchingIds(c: Collection, where: Option<Where>): (ids: set<Id>)
    ensures ids <= c.records.Keys
    ensures where.None? ==> ids == c.records.Keys
    ensures forall id :: id in ids ==> where.None? || Matches(c.records[id], where.value)
    ensures forall id :: id in c.records && (where.None? || Matches(c.records[id], where.value)) ==> id in ids
  {
    set id | id in c.records && (where.None? || Matches(c.records[id], where.value))
  }

  /** `collection.delete(ids=...)`: the listed records go, everything else stays. */
  function DeleteIds(c: Collection, ids: set<Id>): (c': Collection)
    ensures c'.metadata == c.metadata
    ensures c'.records.Keys == c.records.Keys - ids
    ensures forall id :: id in c'.records ==> c'.records[id] == c.records[id]
  {
    c.(records := c.records - ids)
  }

  /** `collection.delete(where=...)`: no record matches afterwards, and the others are untouched. */
  function DeleteMatching(c: Collection, where: Where): (c': Collection)
    ensures c'.metadata == c.metadata
    ensures MatchingIds(c', Some(where)) == {}
    ensures c'.records.Keys == c.records.Keys - MatchingIds(c, Some(where))
    ensures forall id :: id in c'.records ==> c'.records[id] == c.records[id] && !Matches(c.records[id], where)
  {
    DeleteIds(c, MatchingIds(c, Some(where)))
  }

  // ---------------------------------------------------------------------------
  // Binding to a collection

  /** What binding produced: the collection's embedding model and the store afterwards. */
  datatype Binding = Binding(embeddingModel: Value, store: Store)

  /**
   * The rule of the ChromaDB constructor for a given collection name: bind to
   * an existing collection and read its embedding model from its metadata;
   * otherwise create the collection, which needs an embedding model (`Null`
   * stands for Python's None).
   */
  function OpenCollection(store: Store, name: string, embeddingModel: Value): (r: Result<Binding, Error>)
    ensures name in store ==> r.Failure? || r.value.store == store
    ensures name in store && EmbeddingModelKey in store[name].metadata ==>
              r == Success(Binding(store[name].metadata[EmbeddingModelKey], store))
    ensures name in store && EmbeddingModelKey !in store[name].metadata ==>
              r == Failure(KeyError(EmbeddingModelKey))
    ensures name !in store && embeddingModel == Null ==> r.Failure? && r.error.ValueError?
    ensures name !in store && embeddingModel != Null ==>
              && r.Success?
              && r.value.embeddingModel == embeddingModel
              && r.value.store.Keys == store.Keys + {name}
              && r.value.store[name] == Collection(map[EmbeddingModelKey := embeddingModel], map[])
              && (forall other :: other in store ==> r.value.store[other] == store[other])
  {
    if name in store then
      var c := store[name];
      if EmbeddingModelKey in c.metadata then Success(Binding(c.metadata[EmbeddingModelKey], store))
      else Failure(KeyError(EmbeddingModelKey))
    else if embeddingModel == Null then
      Failure(ValueError("Collection: " + name + " does not exist. You must create a collection with 'load' first."))
    else
      Success(Binding(embeddingModel, store[name := Collection(map[EmbeddingModelKey := embeddingModel], map[])]))
  }

  /** Binding to an existing collection ignores the embedding model the caller passes. */
  lemma BindIgnoresArgument(store: Store, name: string, m1: Value, m2: Value)
    requires name in store
    ensures OpenCollection(store, name, m1) == OpenCollection(store, name, m2)
  {
  }

  /**
   * A collection created with model e reports e on every later bind, whatever
   * model that bind passes.
   */
  lemma CreatedModelIsPermanent(store: Store, name: string, e: Value, f: Value)
    requires name !in store && e != Null
    ensures OpenCollection(store, name, e).Success?
    ensures var created := OpenCollection(store, name, e).value.store;
            OpenCollection(created, name, f) == Success(Binding(e, created))
  {
  }

  // ---------------------------------------------------------------------------
  // Content-addressed ids and in-batch deduplication

  predicate AllSourced(documents: seq<Document>) {
    forall d :: d in documents ==> SourceKey in d.metadata
  }

  /**
   * A record's id: the SHA-256 hex digest of the UTF-8 bytes of the content
   * followed by those of the source. Feeding the two encodings one after the
   * other hashes the encoding of their concatenation, so the id is a function
   * of `content + source` alone; the digest itself is the parameter sha256.
   */
  function RecordId(doc: Document, sha256: string -> Id): (id: Id)
    ensures id == sha256(doc.content + doc.metadata[SourceKey])
    requires SourceKey in doc.metadata
  {
    sha256(doc.content + doc.metadata[SourceKey])
  }

  /** Documents whose content and source concatenate to the same text get the same id. */
  lemma SameConcatenationSameId(d1: Document, d2: Document, sha256: string -> Id)
    requires SourceKey in d1.metadata && SourceKey in d2.metadata
    requires d1.content + d1.metadata[SourceKey] == d2.content + d2.metadata[SourceKey]
    ensures RecordId(d1, sha256) == RecordId(d2, sha256)
  {
  }

  /** So ("ab", "c") and ("a", "bc") collide, although they differ as pairs. */
  lemma BoundaryCollision(sha256: string -> Id)
    ensures RecordId(Document("ab", map[SourceKey := "c"]), sha256)
         == RecordId(Document("a", map[SourceKey := "bc"]), sha256)
  {
    assert "ab" + "c" == "a" + "bc";
  }

  predicate NoDuplicates(ids: seq<Id>) {
    forall k, l :: 0 <= k < l < |ids| ==> ids[k] != ids[l]
  }

  /** The ids and documents handed to `add_documents`, index-aligned. */
  datatype Batch = Batch(ids: seq<Id>, docs: seq<Document>)

  /**
   * What the loop of `load_documents` builds: a document is kept when its id
   * is not yet among the ids kept before it.
   */
  function Dedup(documents: seq<Document>, sha256: string -> Id): (b: Batch)
    requires AllSourced(documents)
    ensures |b.ids| == |b.docs|
    ensures forall k :: 0 <= k < |b.docs| ==>
              b.docs[k] in documents && b.ids[k] == RecordId(b.docs[k], sha256)
    ensures NoDuplicates(b.ids)
    ensures forall d :: d in documents ==> RecordId(d, sha256) in b.ids
    ensures b.ids == [] <==> documents == []
  {
    if documents == [] then Batch([], [])
    else
      var prefix := documents[..|documents| - 1];
      var doc := documents[|documents| - 1];
      assert forall d :: d in prefix ==> d in documents;
      var b := Dedup(prefix, sha256);
      var id := RecordId(doc, sha256);
      assert forall d :: d in documents ==> d in prefix || d == doc;
      if id in b.ids then b
      else
        var b' := Batch(b.ids + [id], b.docs + [doc]);
        assert forall k :: 0 <= k < |b.ids| ==> b'.ids[k] == b.ids[k];
        b'
  }

  predicate IsFirstOccurrence(documents: seq<Document>, j: nat, sha256: string -> Id)
    requires AllSourced(documents) && j < |documents|
  {
    forall i :: 0 <= i < j ==> RecordId(documents[i], sha256) != RecordId(documents[j], sha256)
  }

  /** Reference definition: the documents no earlier document shares an id with, in input order. */
  function FirstOccurrences(documents: seq<Document>, sha256: string -> Id): seq<Document>
    requires AllSourced(documents)
  {
    if documents == [] then []
    else
      var prefix := documents[..|documents| - 1];
      assert forall d :: d in prefix ==> d in documents;
      FirstOccurrences(prefix, sha256)
        + (if IsFirstOccurrence(documents, |documents| - 1, sha256) then [documents[|documents| - 1]] else [])
  }

  /** An id is among those kept from a prefix exactly when some document of the prefix has it. */
  lemma KeptIdsOfPrefix(documents: seq<Document>, sha256: string -> Id)
    requires AllSourced(documents) && |documents| > 0
    ensures var n := |documents| - 1;
            AllSourced(documents[..n]) &&
            (RecordId(documents[n], sha256) in Dedup(documents[..n], sha256).ids <==>
             !IsFirstOccurrence(documents, n, sha256))
  {
    var n := |documents| - 1;
    var prefix := documents[..n];
    assert forall d :: d in prefix ==> d in documents;
    var b := Dedup(prefix, sha256);
    var id := RecordId(documents[n], sha256);
    if id in b.ids {
      var k :| 0 <= k < |b.ids| && b.ids[k] == id;
      var i :| 0 <= i < |prefix| && prefix[i] == b.docs[k];
      assert RecordId(documents[i], sha256) == id;
    }
    if !IsFirstOccurrence(documents, n, sha256) {
      var i :| 0 <= i < n && RecordId(documents[i], sha256) == id;
      assert prefix[i] in prefix;
    }
  }

  /** The first occurrence of each id wins, and kept documents stay in input order. */
  lemma {:induction false} DedupKeepsFirstOccurrences(documents: seq<Document>, sha256: string -> Id)
    requires AllSourced(documents)
    ensures Dedup(documents, sha256).docs == FirstOccurrences(documents, sha256)
  {
    if documents != [] {
      var n := |documents| - 1;
      var prefix := documents[..n];
      assert forall d :: d in prefix ==> d in documents;
      DedupKeepsFirstOccurrences(prefix, sha256);
      KeptIdsOfPrefix(documents, sha256);
    }
  }

  /** The loop of `load_documents`: hash each document and keep the first document per id. */
  method DedupBatch(documents: seq<Document>, sha256: string -> Id) returns (r: Result<Batch, Error>)
    ensures r.Success? <==> AllSourced(documents)
    ensures r.Failure? ==> r.error == KeyError(SourceKey)
    ensures r.Success? ==> AllSourced(documents) && r.value == Dedup(documents, sha256)
  {
    var ids: seq<Id> := [];
    var docs: seq<Document> := [];
    for i := 0 to |documents|
      invariant AllSourced(documents[..i])
      invariant Batch(ids, docs) == Dedup(documents[..i], sha256)
    {
      var doc := documents[i];
      if SourceKey !in doc.metadata {
        return Failure(KeyError(SourceKey));
      }
      var id := sha256(doc.content + doc.metadata[SourceKey]);
      assert documents[..i + 1][..i] == documents[..i];
      if id !in ids {
        ids := ids + [id];
        docs := docs + [doc];
      }
    }
    assert documents[..|documents|] == documents;
    return Success(Batch(ids, docs));
  }

  // ---------------------------------------------------------------------------
  // Upsert by id (how LangChain's Chroma wrapper adds documents)

  /**
   * The record Chroma keeps when a document is upserted under `id`: a new id
   * stores the document; an existing id takes the new content and merges the
   * new metadata keys into the stored ones.
   */
  function Merged(records: map<Id, Record>, id: Id, doc: Document): (rec: Record)
    ensures rec.content == doc.content
    ensures forall key :: key in doc.metadata ==> key in rec.metadata && rec.metadata[key] == doc.metadata[key]
    ensures id !in records ==> rec.metadata == doc.metadata
    ensures id in records ==>
              && rec.metadata.Keys == records[id].metadata.Keys + doc.metadata.Keys
              && forall key :: key in records[id].metadata && key !in doc.metadata ==>
                   rec.metadata[key] == records[id].metadata[key]
  {
    if id in records then Record(doc.content, records[id].metadata + doc.metadata) else ToRecord(doc)
  }

  /** Insert or merge each (id, document) pair in order. */
  function Upsert(records: map<Id, Record>, ids: seq<Id>, docs: seq<Document>): (r: map<Id, Record>)
    requires |ids| == |docs|
    ensures r.Keys == records.Keys + set id | id in ids
    decreases |ids|
  {
    if ids == [] then records
    else Upsert(records[ids[0] := Merged(records, ids[0], docs[0])], ids[1..], docs[1..])
  }

  /** With distinct ids, each id ends up holding its document merged into what it held, and other records are untouched. */
  lemma {:induction false} UpsertValues(records: map<Id, Record>, ids: seq<Id>, docs: seq<Document>)
    requires |ids| == |docs| && NoDuplicates(ids)
    ensures forall k :: 0 <= k < |ids| ==> Upsert(records, ids, docs)[ids[k]] == Merged(records, ids[k], docs[k])
    ensures forall id :: id in records && id !in ids ==> Upsert(records, ids, docs)[id] == records[id]
    decreases |ids|
  {
    if ids != [] {
      var next := records[ids[0] := Merged(records, ids[0], docs[0])];
      var rest := ids[1..];
      assert NoDuplicates(rest) by {
        forall k, l | 0 <= k < l < |rest| ensures rest[k] != rest[l] {
          assert rest[k] == ids[k + 1] && rest[l] == ids[l + 1];
        }
      }
      UpsertValues(next, rest, docs[1..]);
      assert ids[0] !in rest by {
        forall k | 0 <= k < |rest| ensures rest[k] != ids[0] {
          assert rest[k] == ids[k + 1];
        }
      }
      forall k | 0 < k < |ids| ensures Upsert(records, ids, docs)[ids[k]] == Merged(records, ids[k], docs[k]) {
        assert ids[k] == rest[k - 1];
        assert docs[k] == docs[1..][k - 1];
        assert ids[k] != ids[0];
        assert Merged(next, ids[k], docs[k]) == Merged(records, ids[k], docs[k]);
      }
    }
  }

  /** Merging a document into the record it already produced changes nothing. */
  lemma MergeAgain(records: map<Id, Record>, stored: map<Id, Record>, id: Id, doc: Document)
    requires id in stored && stored[id] == Merged(records, id, doc)
    ensures Merged(stored, id, doc) == stored[id]
  {
    var m := stored[id].metadata;
    assert m + doc.metadata == m;
  }

  /** Adding a batch of distinct ids a second time changes nothing. */
  lemma UpsertIdempotent(records: map<Id, Record>, ids: seq<Id>, docs: seq<Document>)
    requires |ids| == |docs| && NoDuplicates(ids)
    ensures Upsert(Upsert(records, ids, docs), ids, docs) == Upsert(records, ids, docs)
  {
    var once := Upsert(records, ids, docs);
    var twice := Upsert(once, ids, docs);
    UpsertValues(records, ids, docs);
    UpsertValues(once, ids, docs);
    forall id | id in once ensures twice[id] == once[id] {
      if id in ids {
        var k :| 0 <= k < |ids| && ids[k] == id;
        MergeAgain(records, once, id, docs[k]);
      }
    }
  }

  /** `add_documents(documents=docs, ids=ids)` on one collection. */
  function AddDocuments(c: Collection, b: Batch): (c': Collection)
    requires |b.ids| == |b.docs|
    ensures c'.metadata == c.metadata
  {
    c.(records := Upsert(c.records, b.ids, b.docs))
  }

  /**
   * Ingesting the same documents twice: the first load stores every
   * document's id; the second load adds no id and changes no record.
   */
  lemma ReloadChangesNothing(c: Collection, documents: seq<Document>, sha256: string -> Id)
    requires AllSourced(documents)
    ensures var b := Dedup(documents, sha256);
            var once := AddDocuments(c, b);
            && (forall d :: d in documents ==> RecordId(d, sha256) in once.records)
            && once.records.Keys == c.records.Keys + set id | id in b.ids
            && AddDocuments(once, b) == once
  {
    var b := Dedup(documents, sha256);
    UpsertIdempotent(c.records, b.ids, b.docs);
  }

  /**
   * Deduplication works within one batch only: a later load of a document
   * whose id collides with a stored one takes over that record's content and
   * overwrites the metadata keys it carries.
   */
  lemma LaterCollisionOverwrites(c: Collection, d1: Document, d2: Document, sha256: string -> Id)
    requires SourceKey in d1.metadata && SourceKey in d2.metadata
    requires RecordId(d1, sha256) == RecordId(d2, sha256)
    ensures var id := RecordId(d1, sha256);
            var once := AddDocuments(c, Dedup([d1], sha256));
            var twice := AddDocuments(once, Dedup([d2], sha256));
            && once.records[id] == Merged(c.records, id, d1)
            && twice.records[id] == Record(d2.content, once.records[id].metadata + d2.metadata)
            && (id !in c.records ==> twice.records[id] == Record(d2.content, d1.metadata + d2.metadata))
  {
    assert [d1][..0] == [] && [d2][..0] == [];
    assert AllSourced([d1]) && AllSourced([d2]);
    assert Dedup([], sha256) == Batch([], []);
    assert [] + [RecordId(d1, sha256)] == [RecordId(d1, sha256)] && [] + [d1] == [d1];
    assert [] + [RecordId(d2, sha256)] == [RecordId(d2, sha256)] && [] + [d2] == [d2];
    var b1, b2 := Dedup([d1], sha256), Dedup([d2], sha256);
    assert b1 == Batch([RecordId(d1, sha256)], [d1]);
    assert b2 == Batch([RecordId(d2, sha256)], [d2]);
    UpsertValues(c.records, b1.ids, b1.docs);
    UpsertValues(AddDocuments(c, b1).records, b2.ids, b2.docs);
  }

  // ---------------------------------------------------------------------------
  // The persistent client and the ChromaDB object

  /** The persistent Chroma client: the collections on disk. */
  class Client {
    var collections: Store

    constructor (persisted: Store)
      ensures collections == persisted
    {
      collections := persisted;
    }
  }

  /** LangChain's Chroma wrapper over one collection and its embedding function. */
  datatype DbHandle = DbHandle(collectionName: string, embeddingModel: Value)

  class ChromaDB {
    const client: Client
    const collectionName: Option<string>
    /** The bound collection, by name; None when no collection name was given. */
    var collection: Option<string>
    /** Unset (None) when no collection name was given. */
    var embeddingModel: Option<Value>
    /** The embedding function, identified by the model it wraps. */
    var embeddings: Option<Value>
    var db: Option<DbHandle>

    ghost predicate Valid()
      reads this
    {
      && collection == collectionName
      && (collection.Some? <==> embeddingModel.Some?)
      && embeddings == embeddingModel
      && db == (if collection.Some? then Some(DbHandle(collection.value, embeddingModel.value)) else None)
    }

    /** Bound to a collection that is in the store. */
    ghost predicate Bound()
      reads this, client
    {
      Valid() && collection.Some? && collection.value in client.collections
    }

    constructor Bind(client: Client, name: Option<string>, model: Option<Value>)
      requires name.Some? <==> model.Some?
      ensures Valid() && this.client == client && collectionName == name
      ensures embeddingModel == model
    {
      this.client := client;
      collectionName := name;
      collection := name;
      embeddingModel := model;
      embeddings := model;
      db := if name.Some? then Some(DbHandle(name.value, model.value)) else None;
    }

    /**
     * `ChromaDB(collection_name, embedding_model)`, which may raise: with no
     * name nothing is bound and the store is untouched; with a name the
     * collection is bound, created or refused as OpenCollection says.
     */
    static method Open(client: Client, name: Option<string>, embeddingModel: Value) returns (r: Result<ChromaDB, Error>)
      modifies client
      ensures r.Success? ==> fresh(r.value) && r.value.Valid() && r.value.client == client && r.value.collectionName == name
      ensures name.None? ==>
                && r.Success?
                && r.value.collection.None? && r.value.embeddings.None? && r.value.db.None?
                && client.collections == old(client.collections)
      ensures name.Some? ==>
                var o := OpenCollection(old(client.collections), name.value, embeddingModel);
                && (o.Failure? ==> r == Failure(o.error) && client.collections == old(client.collections))
                && (o.Success? ==> r.Success? && r.value.embeddingModel == Some(o.value.embeddingModel)
                                   && client.collections == o.value.store && r.value.Bound())
    {
      if name.None? {
        var db := new ChromaDB.Bind(client, None, None);
        return Success(db);
      }
      var o := OpenCollection(client.collections, name.value, embeddingModel);
      if o.Failure? {
        return Failure(o.error);
      }
      client.collections := o.value.store;
      var db := new ChromaDB.Bind(client, name, Some(o.value.embeddingModel));
      return Success(db);
    }

    /** `get_ids(where)`: the ids of the bound collection's records that match (all of them without a filter). */
    method GetIds(where: Option<Where>) returns (ids: set<Id>)
      requires Bound()
      ensures ids == MatchingIds(client.collections[collection.value], where)
    {
      ids := MatchingIds(client.collections[collection.value], where);
    }

    /** `delete_where(where)`: returns the ids that matched before, and removes exactly those records. */
    method DeleteWhere(where: Where) returns (ids: set<Id>)
      requires Bound()
      modifies client
      ensures Bound()
      ensures ids == MatchingIds(old(client.collections[collection.value]), Some(where))
      ensures client.collections ==
                old(client.collections)[collection.value := DeleteMatching(old(client.collections[collection.value]), where)]
    {
      ids := GetIds(Some(where));
      var name := collection.value;
      client.collections := client.collections[name := DeleteMatching(client.collections[name], where)];
    }

    /**
     * `delete_all_records()`: returns every id and leaves the collection
     * present, empty, with its metadata. On an empty collection the id list
     * is empty and Chroma refuses the delete.
     */
    method DeleteAllRecords() returns (r: Result<set<Id>, Error>)
      requires Bound()
      modifies client
      ensures Bound()
      ensures r.Success? <==> old(client.collections[collection.value].records) != map[]
      ensures r.Failure? ==> r.error == NothingToDelete && client.collections == old(client.collections)
      ensures r.Success? ==>
                && r.value == old(client.collections[collection.value].records.Keys)
                && client.collections ==
                     old(client.collections)[collection.value := Collection(old(client.collections[collection.value].metadata), map[])]
    {
      var ids := GetIds(None);
      if ids == {} {
        return Failure(NothingToDelete);
      }
      var name := collection.value;
      var emptied := DeleteIds(client.collections[name], ids);
      assert emptied.records == map[];
      client.collections := client.collections[name := emptied];
      return Success(ids);
    }

    /** `delete_collection()`: True and the collection is gone if it existed, otherwise False and nothing changes. */
    method DeleteCollection() returns (existed: bool)
      requires Valid() && collectionName.Some?
      modifies client
      ensures existed <==> collectionName.value in old(client.collections)
      ensures client.collections == old(client.collections) - {collectionName.value}
    {
      var name := collectionName.value;
      if name in client.collections {
        client.collections := client.collections - {name};
        existed := true;
      } else {
        existed := false;
      }
    }

    /**
     * `load_documents(documents)`: a document without a source raises
     * KeyError before anything is saved; Chroma refuses to upsert an empty
     * id list with a ValueError; otherwise the deduplicated batch is
     * upserted and its ids are returned.
     */
    method LoadDocuments(documents: seq<Document>, sha256: string -> Id) returns (r: Result<seq<Id>, Error>)
      requires Bound()
      modifies client
      ensures Bound()
      ensures r.Success? <==> AllSourced(documents) && documents != []
      ensures !AllSourced(documents) ==> r == Failure(KeyError(SourceKey))
      ensures AllSourced(documents) && documents == [] ==> r == Failure(EmptyIds)
      ensures r.Failure? ==> client.collections == old(client.collections)
      ensures r.Success? ==>
                && AllSourced(documents)
                && r.value == Dedup(documents, sha256).ids
                && client.collections == old(client.collections)[collection.value :=
                     AddDocuments(old(client.collections[collection.value]), Dedup(documents, sha256))]
    {
      var batch := DedupBatch(documents, sha256);
      if batch.Failure? {
        return Failure(batch.error);
      }
      if batch.value.ids == [] {
        return Failure(EmptyIds);
      }
      var name := collection.value;
      client.collections := client.collections[name := AddDocuments(client.collections[name], batch.value)];
      return Success(batch.value.ids);
    }
  }
}

=== FILE: wrappers.dfy ===
/** Optional values and results, with the failure-propagation members that `:-` needs. */
module Wrappers {

  datatype Option<+T> = None | Some(value: T)

  datatype Result<+T, +E> = Success(value: T) | Failure(error: E) {
    predicate IsFailure() { Failure? }

    function PropagateFailure<U>(): Result<U, E>
      requires Failure?
    {
      Failure(error)
    }

    function Extract(): T
      requires Success?
    {
      value
    }
  }
}
